=== FILE: README.md ===
# Repository core of `solidcode.work.infra` and `Play.CommonUtils`, in Dafny

This project models the data-access core shared by the two libraries:

- the result envelopes (`TResult`, `TResult<T>`) and the factory that builds them;
- the older `Play.CommonUtils` envelope and its `Success` / `Fail` factory;
- seven repository variants over one abstract store:
  - the relational `EfRepository<T>` and `Repository<T>` (EFCore/Repositories);
  - the document `MongoRepository<T>` (Mongo/);
  - the older `MongoRepository<T>` and `EfRepository<T>` (Repositories/);
  - the exception-throwing `EfRepository<T>` and `MongoRepository<T>` of `Play.CommonUtils`;
- paging: `PagedRequestDto`, `ToPagedResultAsync` and `PagedResult<T>`;
- the envelope-to-HTTP mapping of `ApiControllerBase.FromResult`.

A table or collection is a sequence of entities (`Store.Store`). An entity has:

- a 128-bit `Id`;
- its other values, as a map from column name to value;
- the upsert marker, `None` when the entity type does not implement the list-edit interface and `Some(isNew)` when it does.

A null argument is `None`.

Every operation is a pure function of the store, its arguments and a fault oracle (`Store.Fault`):

- `Healthy` means the store answers normally.
- `Throws(kind, message)` makes the first store call of the operation throw, and nothing is persisted.

The store's own refusals are not faults: an insert that reuses a stored id fails, and a relational update of a row that is not there fails.

Queries return the answer. Commands return `Step(store', answer)`. The exception-throwing variants return `Success(value)` or `Failure(kind)`.

Modules follow the source files:

- `Envelope`, `LegacyEnvelope`
- `Store`
- `EfRepository`, `Repository`, `MongoRepository`
- `LegacyMongoRepository`, `LegacyEfRepository`
- `PlayEfRepository`, `PlayMongoRepository`
- `Paging`, `ApiController`

`Variants` relates operations to each other and compares the variants.

Behaviour of the code worth noting, which the model reproduces:

- `Repository<T>` answers 200 for an empty table and for a create. It has no empty-id or null guards.
- The document upsert runs in no transaction. In `Play.CommonUtils` a replace that matches nothing throws `InvalidOperationException`.
- Not every failure is caught:
  - the `Play.CommonUtils` repositories throw;
  - the relational `SaveChangesAsync` catches only concurrency failures.
- The paging code has no guard on page number or size. The skip offset wraps as 32-bit arithmetic.
- The relational `UpdateAsync` saves nothing for an argument the context does not already track (see Findings).

## Model

| member | source | states |
|---|---|---|
| Envelope.TResultOf.Base | src/solidcode.work.infra/Entities/TResult.cs:3-14 | the generic envelope is the non-generic one plus exactly one field, `Data`; forgetting it gives back the same success flag, status code and message |
| Envelope.Classify | src/solidcode.work.infra/Entities/TResult.cs:6 | a status code is read back as the factory outcome that writes it, and codes no factory method writes are recognised as such |
| Envelope.Ok | src/solidcode.work.infra/Entities/TResultFactory.cs:9-15 | a success with status 200 and the given, possibly absent, message |
| Envelope.OkOf | src/solidcode.work.infra/Entities/TResultFactory.cs:17-24 | a success with status 200 carrying exactly the given data |
| Envelope.Created | src/solidcode.work.infra/Entities/TResultFactory.cs:26-32 | a success with status 201 and the given message |
| Envelope.CreatedOf | src/solidcode.work.infra/Entities/TResultFactory.cs:34-41 | a success with status 201 carrying exactly the given data |
| Envelope.NoContent | src/solidcode.work.infra/Entities/TResultFactory.cs:43-49 | a success with status 204 and the given message |
| Envelope.NoContentOf | src/solidcode.work.infra/Entities/TResultFactory.cs:51-58 | a success with status 204 whose data is left at its default, null for the reference types the repositories use |
| Envelope.BadRequest | src/solidcode.work.infra/Entities/TResultFactory.cs:64-70 | a failure with status 400 and the mandatory message |
| Envelope.BadRequestOf | src/solidcode.work.infra/Entities/TResultFactory.cs:72-78 | a failure with status 400, the message, and the data at its default, null for the reference types the repositories use |
| Envelope.NotFound | src/solidcode.work.infra/Entities/TResultFactory.cs:80-86 | a failure with status 404 and the message |
| Envelope.NotFoundOf | src/solidcode.work.infra/Entities/TResultFactory.cs:88-94 | a failure with status 404, the message, and the data at its default, null for the reference types the repositories use |
| Envelope.Error | src/solidcode.work.infra/Entities/TResultFactory.cs:100-106 | a failure with status 500 and the message |
| Envelope.ErrorOf | src/solidcode.work.infra/Entities/TResultFactory.cs:108-114 | a failure with status 500, the message, and the data at its default, null for the reference types the repositories use |
| Envelope.ClassifyCode | src/solidcode.work.infra/Entities/TResultFactory.cs:9-114 | the six factory outcomes have six distinct status codes |
| Envelope.SucceedsIffSuccessCode | src/solidcode.work.infra/Entities/TResultFactory.cs:9-114 | an outcome succeeds exactly when its code is 200, 201 or 204 |
| Envelope.FactoryWellFormed | src/solidcode.work.infra/Entities/TResultFactory.cs:9-114 | every envelope the factory builds, generic or not, succeeds exactly when its status is 200, 201 or 204 |
| Envelope.GenericAgreesWithBase | src/solidcode.work.infra/Entities/TResultFactory.cs:9-114 | each generic factory method agrees with its non-generic twin on everything but `Data` |
| Envelope.DataOnlyWhenGiven | src/solidcode.work.infra/Entities/TResultFactory.cs:17-24 | only `Ok<T>` and `Created<T>` carry data; `NoContent<T>` and the failures leave it at its default, null for the reference types the repositories use |
| LegacyEnvelope.New | src/Play.CommonUtils/Entities/TResult.cs:7-11 | a fresh envelope has no output items, a fresh `T` as data, and every flag and text at its default |
| LegacyEnvelope.Succeed | src/Play.CommonUtils/Entities/TResultFactory.cs:5-8 | `Success` and `RequestSuccess` are both set; data and message are exactly the arguments; no error type |
| LegacyEnvelope.Fail | src/Play.CommonUtils/Entities/TResultFactory.cs:10-13 | `Success` is clear but `RequestSuccess` is set; the data is null; the message and error type are the arguments |
| LegacyEnvelope.SucceedUntyped | src/Play.CommonUtils/Entities/TResultFactory.cs:15 | the untyped success is the generic one at `object` with null data |
| LegacyEnvelope.FailUntyped | src/Play.CommonUtils/Entities/TResultFactory.cs:16 | the untyped failure is the generic one at `object` |
| LegacyEnvelope.RequestSuccessAlwaysSet | src/Play.CommonUtils/Entities/TResultFactory.cs:5-13 | `RequestSuccess` is set on every envelope the factory builds; only `Success` tells success from failure |
| LegacyEnvelope.Defaults | src/Play.CommonUtils/Entities/TResultFactory.cs:5-16 | the default message is empty and the default error type is absent |
| Store.GuidText | src/solidcode.work.infra/EFCore/Repositories/EfRepository.cs:80 | an id interpolated into a message is 36 characters, with dashes at positions 8, 13, 18 and 23 |
| Store.HexRoundTrip | src/solidcode.work.infra/EFCore/Repositories/EfRepository.cs:80 | reading back the hex digits written for a number gives the number, modulo the digits' width |
| Store.GuidTextInjective | src/solidcode.work.infra/EFCore/Repositories/EfRepository.cs:80 | two different ids never print the same, so a not-found message names exactly one id |
| Store.FirstOrDefault | src/solidcode.work.infra/EFCore/Repositories/EfRepository.cs:102 | the result satisfies the filter and sits at a position before which no stored record does; it is null exactly when no record does |
| Store.Lookup | src/solidcode.work.infra/EFCore/Repositories/EfRepository.cs:77 | a record is found exactly when one has the id; it is stored and has the id; with unique ids it is that record |
| Store.Where | src/solidcode.work.infra/EFCore/Repositories/Repository.cs:78 | the stored records that satisfy the filter, each as often as it is stored and no other record |
| Store.WhereAppend | src/solidcode.work.infra/EFCore/Repositories/Repository.cs:78 | the filter keeps store order: the matches of `a + b` are the matches of `a` followed by those of `b` |
| Store.FirstIsHeadOfWhere | src/solidcode.work.infra/EFCore/Repositories/EfRepository.cs:102 | the first match is the head of the ordered matches, and null exactly when there are none |
| Store.FirstOrDefaultAppend | src/solidcode.work.infra/EFCore/Repositories/EfRepository.cs:102 | the first match of `a + b` is that of `a` when `a` has one, and that of `b` otherwise |
| Store.Insert | src/solidcode.work.infra/Mongo/MongoRepository.cs:123 | an insert fails exactly when the id is already stored; otherwise the record is appended, found by its id, and ids stay unique |
| Store.ReplaceOne | src/solidcode.work.infra/Mongo/MongoRepository.cs:142-147 | nothing matches exactly when the id is absent; otherwise the record with the id becomes the argument, every record with another id keeps its position, and ids stay unique |
| Store.SetValues | src/solidcode.work.infra/Repositories/EfRepository.cs:103 | nothing matches exactly when the id is absent; otherwise the stored record keeps its id and marker and takes the argument's values, and every record with another id keeps its position |
| Store.DeleteOne | src/solidcode.work.infra/Mongo/MongoRepository.cs:202-206 | nothing matches exactly when the id is absent; otherwise the first record with the id is removed and the others stay in their order |
| EfRepository.GetAll | src/solidcode.work.infra/EFCore/Repositories/EfRepository.cs:23-39 | 204 without data exactly for an empty table, 200 with the whole table otherwise, 500 with the store's message on a fault |
| EfRepository.GetAllQuery | src/solidcode.work.infra/EFCore/Repositories/EfRepository.cs:41-58 | 200 with the builder's view of the table even when it is empty, never 204; 500 on a fault with the store's message |
| EfRepository.GetById | src/solidcode.work.infra/EFCore/Repositories/EfRepository.cs:60-87 | 400 exactly for the empty id, 404 exactly when no record has the id, 200 with that record otherwise; 500 with the store's message on a fault with a non-empty id |
| EfRepository.GetFirst | src/solidcode.work.infra/EFCore/Repositories/EfRepository.cs:91-112 | 200 with the first match exactly when some record matches, 404 when none does; 500 with the store's message on a fault |
| EfRepository.Create | src/solidcode.work.infra/EFCore/Repositories/EfRepository.cs:120-136 | 400 for null; 201 exactly when the id is new and the store healthy, with the record appended; 500 and no change otherwise; a fault on a non-null argument is 500 with the store's message |
| EfRepository.CreateAndReturn | src/solidcode.work.infra/EFCore/Repositories/EfRepository.cs:168-184 | the same answer and effect as `Create`, echoing the argument on success |
| EfRepository.Update | src/solidcode.work.infra/EFCore/Repositories/EfRepository.cs:139-162 | 400 for null or the empty id, 404 for an absent id, 200 otherwise; for an argument the context does not track, the table never changes; a fault past the guards is 500 with the store's message |
| EfRepository.UpdateCorrected | src/solidcode.work.infra/EFCore/Repositories/EfRepository.cs:139-162 | the same answers as `Update`; on 200 the stored record takes the argument's values and every other record keeps its position |
| EfRepository.UpdateDiscardsValues | src/solidcode.work.infra/EFCore/Repositories/EfRepository.cs:149-155 | as written, an update of an untracked argument answered 200 leaves a later read with the old values; the corrected update saves them |
| EfRepository.UpdateAndReturn | src/solidcode.work.infra/EFCore/Repositories/EfRepository.cs:186-208 | the same answer as `Update`; a 200 carries the record as stored, not the argument |
| EfRepository.Delete | src/solidcode.work.infra/EFCore/Repositories/EfRepository.cs:214-235 | 400 for the empty id, 500 with the store's message on a fault, 404 for an absent id; otherwise exactly that record is removed, the others keeping their order, and the answer is 200 |
| EfRepository.SaveChanges | src/solidcode.work.infra/EFCore/Repositories/EfRepository.cs:237-257 | 200 when healthy; a concurrency failure becomes 500 with its message; any other failure escapes |
| Repository.GetFirst | src/solidcode.work.infra/EFCore/Repositories/Repository.cs:20-37 | 200 with the first match and no message, 404 when nothing matches; 500 with the store's message on a fault |
| Repository.GetById | src/solidcode.work.infra/EFCore/Repositories/Repository.cs:39-53 | never 400: the empty id is looked up like any key; 404 exactly when absent, 200 with the record otherwise; 500 with the store's message on a fault |
| Repository.GetAll | src/solidcode.work.infra/EFCore/Repositories/Repository.cs:55-69 | 200 with the whole table, never 204, even for an empty table; 500 with the store's message on a fault |
| Repository.GetAllWhere | src/solidcode.work.infra/EFCore/Repositories/Repository.cs:71-87 | 200 with the matching records in store order, never 204; 500 with the store's message on a fault |
| Repository.Create | src/solidcode.work.infra/EFCore/Repositories/Repository.cs:89-101 | 200, never 201, exactly when the id is new; null is 500, never 400; a fault on a non-null argument is 500 with the store's message |
| Repository.CreateAndReturn | src/solidcode.work.infra/EFCore/Repositories/Repository.cs:116-128 | the same answer and effect as `Create`, echoing the argument |
| Repository.Update | src/solidcode.work.infra/EFCore/Repositories/Repository.cs:103-115 | only 200 or 500; 200 exactly when the id is stored, and then that record is replaced wholesale while every other record keeps its position; a fault on a non-null argument is 500 with the store's message |
| Repository.UpdateAndReturn | src/solidcode.work.infra/EFCore/Repositories/Repository.cs:130-142 | the same answer and effect as `Update`, echoing the argument |
| Repository.Delete | src/solidcode.work.infra/EFCore/Repositories/Repository.cs:144-166 | 400 for the empty id, 500 with the exception's message on a fault, 404 when absent; otherwise exactly that record is removed, the others keeping their order |
| MongoRepository.ListResult | src/solidcode.work.infra/Mongo/MongoRepository.cs:37-53 | 204 without data exactly when nothing was found, 200 with the documents otherwise; 500 with the store's message and no data on a fault |
| MongoRepository.GetAll | src/solidcode.work.infra/Mongo/MongoRepository.cs:37-53 | 204 exactly for an empty collection, 200 with every document otherwise; 500 with the store's message on a fault |
| MongoRepository.GetAllWhere | src/solidcode.work.infra/Mongo/MongoRepository.cs:55-71 | 204 exactly when no document matches, 200 with the matches in collection order otherwise; 500 with the store's message on a fault |
| MongoRepository.GetById | src/solidcode.work.infra/Mongo/MongoRepository.cs:73-92 | 400 for the empty id, 404 when absent, 200 with the document otherwise; 500 with the store's message on a fault with a non-empty id |
| MongoRepository.GetFirst | src/solidcode.work.infra/Mongo/MongoRepository.cs:94-110 | 200 with the first match exactly when one exists, 404 otherwise; 500 with the store's message on a fault |
| MongoRepository.Create | src/solidcode.work.infra/Mongo/MongoRepository.cs:116-130 | 400 for null; 201 exactly when the id is new, with the document appended; a fault on a non-null argument is 500 with the store's message |
| MongoRepository.CreateAndReturn | src/solidcode.work.infra/Mongo/MongoRepository.cs:155-169 | the same answer and effect as `Create`, echoing the document |
| MongoRepository.Update | src/solidcode.work.infra/Mongo/MongoRepository.cs:132-154 | 400 for null or the empty id, 404 when nothing matched; otherwise the document is replaced wholesale, every other document keeps its position, and the answer is 200; a fault past the guards is 500 with the store's message |
| MongoRepository.UpdateAndReturn | src/solidcode.work.infra/Mongo/MongoRepository.cs:171-193 | the same answer and effect as `Update`, echoing the argument |
| MongoRepository.Delete | src/solidcode.work.infra/Mongo/MongoRepository.cs:195-213 | 400 for the empty id, 500 with the store's message on a fault, 404 when nothing was deleted; otherwise exactly that document is removed, the others keeping their order |
| MongoRepository.SaveChanges | src/solidcode.work.infra/Mongo/MongoRepository.cs:215-226 | always 200 with no message; the collection is untouched |
| LegacyMongoRepository.GetAll | src/solidcode.work.infra/Repositories/MongoRepository.cs:21-37 | 204 exactly for an empty collection, 200 with every document otherwise; 500 with the store's message on a fault |
| LegacyMongoRepository.GetAllWhere | src/solidcode.work.infra/Repositories/MongoRepository.cs:39-55 | 204 exactly when nothing matches, 200 exactly when some document does, with the matches in collection order; 500 with the store's message on a fault |
| LegacyMongoRepository.GetById | src/solidcode.work.infra/Repositories/MongoRepository.cs:57-76 | 400 for the empty id, 404 when absent, 200 with the stored document otherwise; 500 with the store's message on a fault with a non-empty id |
| LegacyMongoRepository.GetFirst | src/solidcode.work.infra/Repositories/MongoRepository.cs:78-94 | 404 exactly when nothing matches, 200 exactly when something does, with the first match; 500 with the store's message on a fault |
| LegacyMongoRepository.Create | src/solidcode.work.infra/Repositories/MongoRepository.cs:100-114 | 400 for null; 201 exactly when the id is new, with the document appended; a fault on a non-null argument is 500 with the store's message |
| LegacyMongoRepository.Update | src/solidcode.work.infra/Repositories/MongoRepository.cs:116-138 | 400 for null or the empty id, 404 when nothing matched, 200 exactly when the id matched, 500 with the store's message on a fault; on 200 the argument replaces the document and every other document keeps its position |
| LegacyMongoRepository.Delete | src/solidcode.work.infra/Repositories/MongoRepository.cs:140-158 | 400 for the empty id, 404 when absent, 200 exactly when a document was deleted, 500 with the store's message on a fault; on 200 the other documents remain in their order |
| LegacyEfRepository.GetAll | src/solidcode.work.infra/Repositories/EfRepository.cs:19-30 | `Success` with the whole table, even when it is empty; `Fail` with the store's message on a fault |
| LegacyEfRepository.GetAllWhere | src/solidcode.work.infra/Repositories/EfRepository.cs:32-43 | `Success` with the matching records in table order; `Fail` with the store's message on a fault |
| LegacyEfRepository.GetById | src/solidcode.work.infra/Repositories/EfRepository.cs:45-63 | `Fail` for the empty id and for an absent id, `Success` with the record otherwise; `Fail` with the store's message on a fault with a non-empty id |
| LegacyEfRepository.GetFirst | src/solidcode.work.infra/Repositories/EfRepository.cs:65-80 | `Success` with the first match exactly when one exists; `Fail` with the store's message on a fault |
| LegacyEfRepository.ApplyChanges | src/solidcode.work.infra/Repositories/EfRepository.cs:83-114 | `Fail` for null or an unmarked type; a new record is appended; an existing one takes the argument's values while every other record keeps its position; an absent id is `Fail` with nothing saved; a fault past the guards is `Fail` with the store's message |
| LegacyEfRepository.Delete | src/solidcode.work.infra/Repositories/EfRepository.cs:116-137 | `Fail` for the empty id and an absent id; otherwise the record is removed, the others keeping their order, and `Success` carries it; a fault with a non-empty id is `Fail` with the store's message |
| PlayEfRepository.GetAll | src/Play.CommonUtils/Repositories/EfRepository.cs:18-21 | the whole table, or the store's exception |
| PlayEfRepository.GetAllWhere | src/Play.CommonUtils/Repositories/EfRepository.cs:23-26 | the matching records in table order; the store's exception with its message on a fault |
| PlayEfRepository.GetById | src/Play.CommonUtils/Repositories/EfRepository.cs:28-34 | `ArgumentException` exactly for the empty id; otherwise the record with the id, null exactly when absent; the store's exception with its message on a fault with a non-empty id |
| PlayEfRepository.GetFirst | src/Play.CommonUtils/Repositories/EfRepository.cs:36-39 | the first matching record in table order, null exactly when none matches; the store's exception with its message on a fault |
| PlayEfRepository.CopyOnto | src/Play.CommonUtils/Repositories/EfRepository.cs:54-58 | `ArgumentException` for the empty id, `InvalidOperationException` for an absent one; otherwise the stored record takes the argument's values and every other record keeps its position; the store's exception with its message on a fault with a non-empty id |
| PlayEfRepository.ApplyChanges | src/Play.CommonUtils/Repositories/EfRepository.cs:40-62 | `ArgumentNullException` for null, `InvalidOperationException` for an unmarked type; a new record is appended; an existing one goes through the update path, which changes that record alone; a fault past the guards (and, on the update path, the id check) is the store's exception with its message |
| PlayEfRepository.Create | src/Play.CommonUtils/Repositories/EfRepository.cs:63-70 | `ArgumentNullException` for null; otherwise the record is appended exactly when its id is new; a fault on a non-null argument is the store's exception with its message |
| PlayEfRepository.Update | src/Play.CommonUtils/Repositories/EfRepository.cs:72-83 | `ArgumentNullException`, `ArgumentException` or `InvalidOperationException` as the guards fail; otherwise the stored record takes the argument's values, every other record keeps its position, and ids stay unique; a fault past the id check is the store's exception with its message |
| PlayEfRepository.Delete | src/Play.CommonUtils/Repositories/EfRepository.cs:85-96 | `ArgumentException` for the empty id, `InvalidOperationException` when absent, the store's exception on a fault; otherwise exactly that record is removed, the others keeping their order |
| PlayMongoRepository.GetAll | src/Play.CommonUtils/Repositories/MongoRepository.cs:17-20 | every document when the store is healthy, otherwise the store's exception with its message |
| PlayMongoRepository.GetAllWhere | src/Play.CommonUtils/Repositories/MongoRepository.cs:22-25 | the matching documents in collection order; the store's exception with its message on a fault |
| PlayMongoRepository.GetById | src/Play.CommonUtils/Repositories/MongoRepository.cs:27-34 | `ArgumentException` exactly for the empty id; otherwise the document, null exactly when absent; the store's exception with its message on a fault with a non-empty id |
| PlayMongoRepository.GetFirst | src/Play.CommonUtils/Repositories/MongoRepository.cs:36-39 | the first matching document in collection order, null exactly when none matches; the store's exception with its message on a fault |
| PlayMongoRepository.ApplyChanges | src/Play.CommonUtils/Repositories/MongoRepository.cs:41-61 | new documents are inserted; an existing one is replaced wholesale with no empty-id check while every other document keeps its position; a replace matching nothing is `InvalidOperationException`; a fault on a marked argument is the store's exception with its message |
| PlayMongoRepository.Create | src/Play.CommonUtils/Repositories/MongoRepository.cs:64-70 | `ArgumentNullException` for null; otherwise the document is appended exactly when its id is new; a fault on a non-null argument is the store's exception with its message |
| PlayMongoRepository.Update | src/Play.CommonUtils/Repositories/MongoRepository.cs:72-84 | the guards throw as for the relational variant; otherwise the argument replaces the document wholesale and every other document keeps its position; a fault past the id check is the store's exception with its message |
| PlayMongoRepository.Delete | src/Play.CommonUtils/Repositories/MongoRepository.cs:86-97 | `ArgumentException` for the empty id, `InvalidOperationException` when absent, the store's exception on a fault; the document is removed exactly when its id is stored, the others keeping their order |
| Paging.Wrap32 | src/solidcode.work.infra/Abstractions/PagedRequestDto.cs:7 | unchecked 32-bit arithmetic gives the one 32-bit value congruent to the exact result, which is that result whenever it fits |
| Paging.CeilDiv | src/solidcode.work.infra/Entities/PagedResult.cs:12-13 | the ceiling `c` of `a / b` is characterised by `(c - 1) * b < a <= c * b` |
| Paging.CeilDivInt32 | src/solidcode.work.infra/Entities/PagedResult.cs:12-13 | the page count of a 32-bit total is itself a 32-bit value |
| Paging.DefaultRequest | src/solidcode.work.infra/Abstractions/PagedRequestDto.cs:4-7 | a request defaults to page 1 of size 20 and skips nothing |
| Paging.NextPageSkip | src/solidcode.work.infra/Abstractions/PagedRequestDto.cs:7 | the next page's skip is one page size more, modulo 2^32, and exactly so when neither offset wraps |
| Paging.PagedRequest.Skip | src/solidcode.work.infra/Abstractions/PagedRequestDto.cs:7 | the skip is `(pageNumber - 1) * pageSize` modulo 2^32, and exactly that product whenever it fits in 32 bits |
| Paging.PagedResult.HasPreviousPage | src/solidcode.work.infra/Entities/PagedResult.cs:15 | with a positive page size, a previous page exists exactly when `(pageNumber - 1) * pageSize` records come before this page |
| Paging.PagedResult.HasNextPage | src/solidcode.work.infra/Entities/PagedResult.cs:16 | a next page exists exactly when `pageNumber * pageSize` falls short of the total count |
| Paging.PositiveProduct | src/solidcode.work.infra/Entities/PagedResult.cs:15 | for a positive page size the skip is positive exactly when the page number exceeds 1 |
| Paging.BelowCeiling | src/solidcode.work.infra/Entities/PagedResult.cs:12-16 | a page number is below the ceiling page count exactly when that many full pages fall short of the total |
| Paging.Window | src/solidcode.work.infra/EFCore/QueryablePagingExtensions.cs:14-17 | the window has `min(take, remaining after skip)` items, each the query's item at the skip plus its position |
| Paging.PagedResult.TotalPages | src/solidcode.work.infra/Entities/PagedResult.cs:12-13 | the page count is the fewest pages that hold every record: `(pages - 1) * size < total <= pages * size` |
| Paging.TotalPagesBounds | src/solidcode.work.infra/Entities/PagedResult.cs:12-16 | no records give no pages and no next page; any record gives at least one page |
| Paging.ToPagedResult | src/solidcode.work.infra/EFCore/QueryablePagingExtensions.cs:6-24 | the total is the count of the whole query; page number and size are echoed; the items are the slice at the skip, at most a page long |
| Paging.ToPagedResultIsPage | src/solidcode.work.infra/EFCore/QueryablePagingExtensions.cs:14-17 | when the offset does not wrap, the helper returns exactly page `k` |
| Paging.PageSlice | src/solidcode.work.infra/EFCore/QueryablePagingExtensions.cs:14-17 | page `k` is the query between `(k - 1) * size` and `k * size`, both capped at the end |
| Paging.PagesPrefix | src/solidcode.work.infra/EFCore/QueryablePagingExtensions.cs:14-17 | pages 1 to `n` concatenated are the first `n * size` records |
| Paging.PagesPartition | src/solidcode.work.infra/Entities/PagedResult.cs:12-13 | pages 1 to `TotalPages` concatenated are the whole query; none is empty, and the next one is |
| Paging.PageOfIndex | src/solidcode.work.infra/EFCore/QueryablePagingExtensions.cs:14-17 | record `j` is item `j % size` of page `j / size + 1` |
| Paging.PageItem | src/solidcode.work.infra/EFCore/QueryablePagingExtensions.cs:14-17 | item `i` of page `k` is the record at position `(k - 1) * size + i`, and a page has fewer than `size` items |
| Paging.PositionsDistinct | src/solidcode.work.infra/EFCore/QueryablePagingExtensions.cs:14-17 | items of different pages have different positions in the query |
| Paging.PagesDisjoint | src/solidcode.work.infra/EFCore/QueryablePagingExtensions.cs:14-17 | any item of page `k1` and any item of another page `k2` are the query's records at two different positions |
| Paging.FlagsOfFetchedPage | src/solidcode.work.infra/Entities/PagedResult.cs:15-16 | a previous page exists exactly when records were skipped; a next page exists exactly when records remain after this page |
| Paging.TwentyFiveRecords | src/solidcode.work.infra/Entities/PagedResult.cs:12-16 | of 25 records in pages of 10, page 2 has 10 items and both neighbours; page 3 has 5 items and no next page |
| ApiController.FromResult | src/solidcode.work.infra/Controller/ApiControllerBase.cs:13-29 | the answer keeps the envelope's status; 201 and 204 have no body, other successes carry the message, failures carry `{ error = message }` |
| ApiController.FromResultOf | src/solidcode.work.infra/Controller/ApiControllerBase.cs:34-46 | every success is 200 with the data; a failure keeps its status and carries `{ error = message }` |
| ApiController.FactoryAnswers | src/solidcode.work.infra/Controller/ApiControllerBase.cs:13-29 | the answer to each factory envelope: only `Created` and `NoContent` drop the message |
| ApiController.OverloadsAgree | src/solidcode.work.infra/Controller/ApiControllerBase.cs:13-46 | the overloads answer failures identically, and successes with the same status exactly when the status is not 201 or 204 |
| Variants.IndexOfUnique | src/solidcode.work.infra/EFCore/Repositories/EfRepository.cs:77 | with unique ids, the lookup finds the one index holding the id |
| Variants.DeleteAppended | src/solidcode.work.infra/Mongo/MongoRepository.cs:202-206 | deleting the record just inserted restores the store |
| Variants.ReplaceSelf | src/solidcode.work.infra/Mongo/MongoRepository.cs:142-147 | replacing a record by itself changes nothing |
| Variants.CreateThenGet | src/solidcode.work.infra/EFCore/Repositories/EfRepository.cs:120-136 | a created record is then read back by its id, equal to the argument |
| Variants.CreateThenDelete | src/solidcode.work.infra/EFCore/Repositories/EfRepository.cs:214-235 | create then delete restores the store exactly, relational and document alike |
| Variants.PlayCreateThenDelete | src/Play.CommonUtils/Repositories/EfRepository.cs:63-96 | the exception-throwing repository's create then delete restores the store |
| Variants.DeleteThenGet | src/solidcode.work.infra/EFCore/Repositories/EfRepository.cs:214-235 | after a delete the id reads as 404, and a second delete is 404 and changes nothing |
| Variants.MongoUpdateIdempotent | src/solidcode.work.infra/Mongo/MongoRepository.cs:132-154 | repeating a successful document update changes nothing more |
| Variants.UpdateThenGet | src/solidcode.work.infra/EFCore/Repositories/EfRepository.cs:139-162 | after a 200 update of an untracked argument the relational read still sees the old record; the document read sees the argument |
| Variants.EmptyTable | src/solidcode.work.infra/EFCore/Repositories/Repository.cs:55-69 | an empty table is 204 for the guarded repositories and 200 with an empty list for `Repository` |
| Variants.CreateCodes | src/solidcode.work.infra/EFCore/Repositories/Repository.cs:89-101 | a create is 201 in the guarded repositories and 200 in `Repository`; null is 400 and 500 respectively |
| Variants.EmptyIdCodes | src/solidcode.work.infra/EFCore/Repositories/Repository.cs:39-53 | the empty id is 400 in the guarded repositories, 404 in `Repository`, and `ArgumentException` in the throwing one |
| Variants.UpdateAbsent | src/solidcode.work.infra/EFCore/Repositories/Repository.cs:103-115 | updating an absent id is 404, a concurrency 500, or `InvalidOperationException`, depending on the variant |
| Variants.UpsertExisting | src/Play.CommonUtils/Repositories/MongoRepository.cs:41-61 | an upsert of an existing record copies values in the relational variants and stores the argument in the document variant |
| Variants.EmptyTableActionResult | src/solidcode.work.infra/Controller/ApiControllerBase.cs:34-41 | the 204 envelope for an empty table becomes the action result `Ok(null)` |

## Left out

- Asynchrony, `CancellationToken`, logging and console output: they carry no data into the answers.
- `include` arguments: they load navigations, and the model's entities have none.
- Change tracking: each relational command is one unit of work.
- No-tracking reads and the ORM's identity map are not modelled.
- The messages of exceptions thrown by the ORM or driver are fixed placeholders in `Store`. The actual texts come from code outside this model.
- The guarded repositories' not-found message has its exact text. `Store.GuidText` prints the id as 32 lower-case hex digits in the 8-4-4-4-12 layout, taking the id's integer value as those digits. .NET's byte order inside a `Guid` is not modelled.
- A fault makes the first store call of an operation throw. Failures in later calls of the same operation, such as a save after a successful read, are not distinguished. Only the relational `SaveChangesAsync` looks at the kind of failure.
- Key generation: the ORM may generate a key when an entity with the empty id is added, and the Mongo driver's `Guid` id generator replaces an empty id on `InsertOneAsync`. The model inserts the id as given in both backends.
- EfRepository.Update: arguments are modelled as entities the context does not track. `GetAsync(id)` and `GetAsync(filter)` read with tracking, so an entity read through them, modified and passed back is the very instance the update finds; the save then writes its changes and the answer is still 200. For such an argument the table does change, which the model does not show.
- EfRepository.UpdateAndReturn: the same assumption as `EfRepository.Update`. For a tracked argument the source saves its changes and returns the modified instance; the model returns the stored record and leaves the table unchanged.
- Repository.Update: `DbSet.Update` tracks an entity whose `Guid` key is empty as added, because the ORM generates `Guid` keys on add, so the save inserts it and the answer is 200. The model looks the empty id up like any other: absent, it answers 500 with the concurrency message; stored, it replaces that record.
- Repository.UpdateAndReturn: the same difference for the empty id as `Repository.Update`, whose answer and store it shares.
- LegacyEfRepository: `Repositories/EfRepository.cs` calls `TResultFactory.Success` and `Fail`, which the factory of the namespace it imports does not declare. Only the `Play.CommonUtils` factory declares them, so the model builds these answers with `LegacyEnvelope`.
- Paging treats the count and the fetch as reads of one snapshot. Concurrent writes between the two round trips are not modelled.
- `Paging.Window` clamps negative skip and take counts to zero, as LINQ to objects does. A database provider may instead reject a negative offset.
- Paging.PagedResult.TotalPages: requires a positive page size. The source divides in floating point, and a page size of 0 or less gives infinities or negative counts that the model does not reproduce.
- Paging.ToPagedResult: requires a query of at most 2^31 - 1 records, since the source's `CountAsync` would throw beyond that.
- The ASP.NET Core rule that sends an `Ok(null)` action result as 204 is framework behaviour, so the model stops at the action result. `ApiController.FromResultOf` gives `Ok(null)` for a success without data, and `ApiController.FromResult` gives `Ok(null)` for a 200 without a message, as from `Repository.Create` or `MongoRepository.SaveChanges`. The status the client then receives is 204 in both cases, not the 200 of the action result.
- The entity interfaces and `OutputItem` are not part of this model. An entity is its id, its values and its upsert marker; `OutputItem` carries no fields.
- The `Play.CommonUtils` `Success<T>` is declared with `where T : class`. `TResult<T>` needs `class, new()`, so the source as written needs the stronger constraint. The model builds the envelope field by field.

## Findings

| source | as written | input that shows it | evidently intended | confidence | as-written member | corrected member |
|---|---|---|---|---|---|---|
| src/solidcode.work.infra/EFCore/Repositories/EfRepository.cs:149-155 | `UpdateAsync` loads the stored record, then saves with nothing changed (an empty statement stands where the copy would be), and answers 200; this holds for an argument the context does not already track | one stored record with id 1 and no values; update with id 1 and `name = new` | copy the argument's values onto the stored record before saving, as the other relational repositories do | not executed; medium: a tracked argument is saved anyway | EfRepository.UpdateDiscardsValues | EfRepository.UpdateCorrected |

=== FILE: controller.dfy ===
/** `ApiControllerBase.FromResult`: how a controller turns an envelope into an
    HTTP answer. The answer is abstracted to a status code and a body: none, a
    value serialised as JSON, or the error object `{ error = Message }`. */
module ApiController {
  import opened Wrappers
  import opened Envelope

  datatype Body<+V> = NoBody | Value(value: V) | ErrorObject(error: Option<string>)

  datatype ActionResult<+V> = ActionResult(status: int, body: Body<V>)

  /** The failure answer shared by both overloads: the envelope's own status
      with its message wrapped in an error object. */
  function Failed<V>(statusCode: int, message: Option<string>): ActionResult<V>
  {
    ActionResult(statusCode, ErrorObject(message))
  }

  /** `FromResult(TResult)`, for commands: a success keeps its status; 200 and
      the unlisted codes carry the message, 201 and 204 carry nothing. */
  function FromResult(r: TResult): (a: ActionResult<Option<string>>)
    ensures a.status == r.statusCode
    ensures !r.isSuccess ==> a.body == ErrorObject(r.message)
    ensures r.isSuccess ==> (a.body.NoBody? <==> r.statusCode == 201 || r.statusCode == 204)
    ensures r.isSuccess && !a.body.NoBody? ==> a.body == Value(r.message)
    ensures a.body.ErrorObject? <==> !r.isSuccess
  {
    if r.isSuccess then
      match r.statusCode
      case 200 => ActionResult(200, Value(r.message))
      case 201 => ActionResult(201, NoBody)
      case 204 => ActionResult(204, NoBody)
      case _ => ActionResult(r.statusCode, Value(r.message))
    else Failed(r.statusCode, r.message)
  }

  /** `FromResult<T>(TResult<T>)`, for queries: every success is 200 with the
      data, so a 201 or 204 envelope is answered as 200; a failure is answered
      as by the non-generic overload. */
  function FromResultOf<T>(r: TResultOf<T>): (a: ActionResult<Option<T>>)
    ensures r.isSuccess ==> a == ActionResult(200, Value(r.data))
    ensures !r.isSuccess ==> a.status == r.statusCode && a.body == ErrorObject(r.message)
  {
    if r.isSuccess then ActionResult(200, Value(r.data))
    else Failed(r.statusCode, r.message)
  }

  /** The answer to each factory's envelope: a success through the command
      overload keeps its status, and only `Created` and `NoContent` drop the
      message; every failure carries its message in the error object. */
  lemma FactoryAnswers(m: Option<string>, e: string)
    ensures FromResult(Ok(m)) == ActionResult(200, Value(m))
    ensures FromResult(Created(m)) == ActionResult(201, NoBody)
    ensures FromResult(NoContent(m)) == ActionResult(204, NoBody)
    ensures FromResult(BadRequest(e)) == ActionResult(400, ErrorObject(Some(e)))
    ensures FromResult(NotFound(e)) == ActionResult(404, ErrorObject(Some(e)))
    ensures FromResult(Error(e)) == ActionResult(500, ErrorObject(Some(e)))
  {
  }

  /** The two overloads answer a failure identically, and a success with the
      same status exactly when that status is not 201 or 204. */
  lemma OverloadsAgree<T>(r: TResultOf<T>)
    requires WellFormed(r.Base())
    ensures !r.isSuccess ==> FromResultOf(r).status == FromResult(r.Base()).status &&
                              FromResultOf(r).body.error == FromResult(r.Base()).body.error
    ensures r.isSuccess ==>
      (FromResultOf(r).status == FromResult(r.Base()).status <==> r.statusCode != 201 && r.statusCode != 204)
  {
    if r.isSuccess {
      var o := Classify(r.statusCode).value;
      assert Code(o) == r.statusCode;
    }
  }
}

=== FILE: ef_repository.dfy ===
/** `EfRepository<T>` of the `solidcode.work.infra` tree (EFCore/Repositories):
    the relational repository that answers with `TResult` envelopes.

    Each operation is a pure function of the table, its arguments and the
    fault oracle. Queries return just the envelope (a read never changes the
    table); commands return the new table together with the envelope.
    The `include` argument of the lookups only loads navigations, which the
    model does not have, so it is left out. */
module EfRepository {
  import opened Wrappers
  import opened Store
  import opened Envelope

  const IdEmptyMessage: string := "Id cannot be empty."
  const EntityNullMessage: string := "Entity cannot be null."
  const EntityIdEmptyMessage: string := "Entity Id cannot be empty."

  function IdNotFoundMessage(id: Guid): string
  {
    "Entity with Id " + GuidText(id) + " not found."
  }

  // ------------------------------------------------------------------
  // Queries
  // ------------------------------------------------------------------

  /** `GetAllAsync()`: 204 without data for an empty table, else 200 with every record. */
  function GetAll(s: Store, fault: Fault): (r: TResultOf<Store>)
    ensures WellFormed(r.Base())
    ensures r.isSuccess <==> fault.Healthy?
    ensures fault.Throws? ==> Is(r.Base(), ErrorOutcome, Some(fault.message)) && r.data.None?
    ensures r.statusCode == 204 <==> fault.Healthy? && s == []
    ensures r.statusCode == 204 ==> r.data.None?
    ensures r.statusCode == 200 <==> fault.Healthy? && s != []
    ensures r.statusCode == 200 ==> r.data == Some(s)
  {
    if fault.Throws? then ErrorOf(fault.message)
    else if |s| == 0 then NoContentOf(Some("No entities found."))
    else OkOf(s, Some("Entities retrieved successfully."))
  }

  /** `GetAllAsync(queryBuilder)`: 200 with the builder's view of the table,
      even when that view is empty; never 204. */
  function GetAllQuery(s: Store, queryBuilder: Store -> Store, fault: Fault): (r: TResultOf<Store>)
    ensures WellFormed(r.Base())
    ensures r.statusCode != 204
    ensures r.isSuccess <==> fault.Healthy?
    ensures r.isSuccess ==> Is(r.Base(), OkOutcome, None) && r.data == Some(queryBuilder(s))
    ensures !r.isSuccess ==> Is(r.Base(), ErrorOutcome, Some(fault.message))
  {
    if fault.Throws? then ErrorOf(fault.message)
    else OkOf(queryBuilder(s))
  }

  /** `GetAsync(id)`: 400 for the empty id before the table is read, 404 when
      no record has the id, else 200 with that record. */
  function GetById(s: Store, id: Guid, fault: Fault): (r: TResultOf<Entity>)
    ensures WellFormed(r.Base())
    ensures r.statusCode == 400 <==> id == EmptyGuid
    ensures r.statusCode == 400 ==> r.message == Some(IdEmptyMessage)
    ensures r.statusCode == 500 <==> id != EmptyGuid && fault.Throws?
    ensures r.statusCode == 404 <==> id != EmptyGuid && fault.Healthy? && !HasId(s, id)
    ensures r.statusCode == 404 ==> r.message == Some(IdNotFoundMessage(id))
    ensures r.statusCode == 200 <==> id != EmptyGuid && fault.Healthy? && HasId(s, id)
    ensures r.isSuccess ==> r.data.Some? && r.data.value in s && r.data.value.id == id
    ensures !r.isSuccess ==> r.data.None?
    ensures id != EmptyGuid && fault.Throws? ==> Is(r.Base(), ErrorOutcome, Some(fault.message))
  {
    if id == EmptyGuid then BadRequestOf(IdEmptyMessage)
    else if fault.Throws? then ErrorOf(fault.message)
    else match Lookup(s, id)
      case None => NotFoundOf(IdNotFoundMessage(id))
      case Some(e) => OkOf(e, Some("Entity found."))
  }

  /** `GetAsync(filter)`: 200 with the first matching record, else 404; no id guard. */
  function GetFirst(s: Store, filter: Entity -> bool, fault: Fault): (r: TResultOf<Entity>)
    ensures WellFormed(r.Base())
    ensures r.statusCode == 500 <==> fault.Throws?
    ensures r.statusCode == 404 <==> fault.Healthy? && forall e :: e in s ==> !filter(e)
    ensures r.statusCode == 200 <==> fault.Healthy? && exists e :: e in s && filter(e)
    ensures r.isSuccess ==> r.data.Some? && r.data == FirstOrDefault(s, filter)
    ensures r.statusCode == 404 ==> r.message == Some("No matching entity found.")
    ensures fault.Throws? ==> Is(r.Base(), ErrorOutcome, Some(fault.message))
  {
    if fault.Throws? then ErrorOf(fault.message)
    else match FirstOrDefault(s, filter)
      case None => NotFoundOf("No matching entity found.")
      case Some(e) => OkOf(e, Some("Entity found."))
  }

  // ------------------------------------------------------------------
  // Commands
  // ------------------------------------------------------------------

  /** `CreateAsync`: 400 for null, else the record is added and saved and the
      answer is 201. A save that fails (a fault, or a key already stored)
      gives 500 and the table is unchanged. */
  function Create(s: Store, entity: Option<Entity>, fault: Fault): (r: Step<TResult>)
    ensures WellFormed(r.result)
    ensures entity.None? ==> Is(r.result, BadRequestOutcome, Some(EntityNullMessage))
    ensures r.result.statusCode == 201 <==> entity.Some? && fault.Healthy? && !HasId(s, entity.value.id)
    ensures r.result.statusCode == 201 ==> r.store == s + [entity.value]
    ensures r.result.statusCode != 201 ==> r.store == s
    ensures r.result.statusCode == 500 <==> entity.Some? && (fault.Throws? || HasId(s, entity.value.id))
    ensures UniqueIds(s) ==> UniqueIds(r.store)
    ensures entity.Some? && fault.Throws? ==> Is(r.result, ErrorOutcome, Some(fault.message))
  {
    match entity
    case None => Step(s, BadRequest(EntityNullMessage))
    case Some(e) =>
      if fault.Throws? then Step(s, Error(fault.message))
      else match Insert(s, e)
        case None => Step(s, Error(DuplicateKeyMessage))
        case Some(s') => Step(s', Created(Some("Entity created successfully.")))
  }

  /** `CreateAndReturnAsync`: as `Create`, echoing the argument on 201. */
  function CreateAndReturn(s: Store, entity: Option<Entity>, fault: Fault): (r: Step<TResultOf<Entity>>)
    ensures r.result.Base() == Create(s, entity, fault).result
    ensures r.store == Create(s, entity, fault).store
    ensures r.result.isSuccess ==> r.result.data == entity
    ensures !r.result.isSuccess ==> r.result.data.None?
  {
    match entity
    case None => Step(s, BadRequestOf(EntityNullMessage))
    case Some(e) =>
      if fault.Throws? then Step(s, ErrorOf(fault.message))
      else match Insert(s, e)
        case None => Step(s, ErrorOf(DuplicateKeyMessage))
        case Some(s') => Step(s', CreatedOf(e, Some("Entity created successfully.")))
  }

  /** `UpdateAsync`: 400 for null or an empty `Id`, 404 when no record has the
      `Id`, else 200. The supplied values are never copied onto the tracked
      record, so for an argument the context does not already track the save
      has nothing to write: the table never changes. */
  function Update(s: Store, entity: Option<Entity>, fault: Fault): (r: Step<TResult>)
    ensures r.store == s
    ensures WellFormed(r.result)
    ensures entity.None? ==> Is(r.result, BadRequestOutcome, Some(EntityNullMessage))
    ensures r.result.statusCode == 400 <==> entity.None? || entity.value.id == EmptyGuid
    ensures r.result.statusCode == 500 <==> entity.Some? && entity.value.id != EmptyGuid && fault.Throws?
    ensures r.result.statusCode == 404 <==> entity.Some? && entity.value.id != EmptyGuid && fault.Healthy? && !HasId(s, entity.value.id)
    ensures r.result.statusCode == 200 <==> entity.Some? && entity.value.id != EmptyGuid && fault.Healthy? && HasId(s, entity.value.id)
    ensures entity.Some? && entity.value.id != EmptyGuid && fault.Throws? ==> Is(r.result, ErrorOutcome, Some(fault.message))
  {
    match entity
    case None => Step(s, BadRequest(EntityNullMessage))
    case Some(e) =>
      if e.id == EmptyGuid then Step(s, BadRequest(EntityIdEmptyMessage))
      else if fault.Throws? then Step(s, Error(fault.message))
      else match Lookup(s, e.id)
        case None => Step(s, NotFound(IdNotFoundMessage(e.id)))
        case Some(_) => Step(s, Ok(Some("Entity updated successfully.")))
  }

  /** `UpdateAsync` with the value copy its empty statement evidently stands
      for (`Entry(existing).CurrentValues.SetValues(entity)`, as in the other
      relational repositories): same answers, but on 200 the stored record
      takes the argument's values. */
  function UpdateCorrected(s: Store, entity: Option<Entity>, fault: Fault): (r: Step<TResult>)
    ensures r.result == Update(s, entity, fault).result
    ensures r.result.statusCode != 200 ==> r.store == s
    ensures r.result.statusCode == 200 ==> |r.store| == |s|
    ensures r.result.statusCode == 200 ==>
      Lookup(r.store, entity.value.id) == Some(Lookup(s, entity.value.id).value.(fields := entity.value.fields))
    ensures r.result.statusCode == 200 ==> ChangedOnly(s, r.store, entity.value.id)
    ensures UniqueIds(s) ==> UniqueIds(r.store)
  {
    match entity
    case None => Step(s, BadRequest(EntityNullMessage))
    case Some(e) =>
      if e.id == EmptyGuid then Step(s, BadRequest(EntityIdEmptyMessage))
      else if fault.Throws? then Step(s, Error(fault.message))
      else
        var w := SetValues(s, e.id, e);
        if w.count == 0 then Step(s, NotFound(IdNotFoundMessage(e.id)))
        else Step(w.store, Ok(Some("Entity updated successfully.")))
  }

  /** As written, an update of an untracked argument that answers 200 leaves
      the new values unsaved: with one stored record and new values for it
      passed as a fresh instance, the answer is 200 but a later read returns
      the old values. The corrected update saves them. */
  lemma UpdateDiscardsValues()
    ensures var x := Entity(1, map[], None);
      var e := Entity(1, map["name" := "new"], None);
      var r := Update([x], Some(e), Healthy);
      r.result.statusCode == 200 &&
      GetById(r.store, 1, Healthy).data == Some(x) && x.fields != e.fields
    ensures var x := Entity(1, map[], None);
      var e := Entity(1, map["name" := "new"], None);
      var r := UpdateCorrected([x], Some(e), Healthy);
      r.result.statusCode == 200 &&
      GetById(r.store, 1, Healthy).data.value.fields == e.fields
  {
    var x := Entity(1, map[], None);
    var e := Entity(1, map["name" := "new"], None);
    assert [x][0] == x;
    assert "name" in e.fields && "name" !in x.fields;
  }

  /** `UpdateAndReturnAsync`: as `Update`, but the 200 answer carries the
      record as stored, not the argument (which, untracked, was not saved). */
  function UpdateAndReturn(s: Store, entity: Option<Entity>, fault: Fault): (r: Step<TResultOf<Entity>>)
    ensures r.store == s
    ensures r.result.Base() == Update(s, entity, fault).result
    ensures r.result.isSuccess ==> entity.Some? && r.result.data == Lookup(s, entity.value.id)
    ensures !r.result.isSuccess ==> r.result.data.None?
  {
    match entity
    case None => Step(s, BadRequestOf(EntityNullMessage))
    case Some(e) =>
      if e.id == EmptyGuid then Step(s, BadRequestOf(EntityIdEmptyMessage))
      else if fault.Throws? then Step(s, ErrorOf(fault.message))
      else match Lookup(s, e.id)
        case None => Step(s, NotFoundOf(IdNotFoundMessage(e.id)))
        case Some(existing) => Step(s, OkOf(existing, Some("Entity updated successfully.")))
  }

  /** `DeleteAsync`: 400 for the empty id, 404 when absent, else exactly that
      record is removed and the answer is 200. */
  function Delete(s: Store, id: Guid, fault: Fault): (r: Step<TResult>)
    ensures WellFormed(r.result)
    ensures r.result.statusCode == 400 <==> id == EmptyGuid
    ensures r.result.statusCode == 500 <==> id != EmptyGuid && fault.Throws?
    ensures r.result.statusCode == 404 <==> id != EmptyGuid && fault.Healthy? && !HasId(s, id)
    ensures r.result.statusCode == 200 <==> id != EmptyGuid && fault.Healthy? && HasId(s, id)
    ensures r.result.statusCode != 200 ==> r.store == s
    ensures r.result.statusCode == 200 ==> |r.store| == |s| - 1 && RemovedOnly(s, r.store, id)
    ensures r.result.statusCode == 200 && UniqueIds(s) ==> forall x :: x in r.store <==> x in s && x.id != id
    ensures UniqueIds(s) ==> UniqueIds(r.store)
    ensures id != EmptyGuid && fault.Throws? ==> Is(r.result, ErrorOutcome, Some(fault.message))
  {
    if id == EmptyGuid then Step(s, BadRequest(IdEmptyMessage))
    else if fault.Throws? then Step(s, Error(fault.message))
    else match Lookup(s, id)
      case None => Step(s, NotFound(IdNotFoundMessage(id)))
      case Some(_) => Step(DeleteOne(s, id).store, Ok(Some("Entity deleted successfully.")))
  }

  /** `SaveChangesAsync`: between calls nothing is pending, so a save writes
      nothing and answers 200. Only a concurrency failure is caught (500);
      any other store failure escapes as an exception (`Failure`). */
  function SaveChanges(fault: Fault): (r: Result<TResult, string>)
    ensures fault.Healthy? ==> r == Success(Ok())
    ensures fault.Throws? && fault.kind.Concurrency? ==> r == Success(Error(fault.message))
    ensures fault.Throws? && fault.kind.General? ==> r == Failure(fault.message)
    ensures r.Success? ==> WellFormed(r.value)
  {
    match fault
    case Healthy => Success(Ok())
    case Throws(Concurrency, m) => Success(Error(m))
    case Throws(General, m) => Failure(m)
  }
}

=== FILE: envelope.dfy ===
/** The result envelope of the `solidcode.work.infra` tree (`TResult`, `TResult<T>`)
    and the factory that is the only place envelopes are built (`TResultFactory`).

    Envelope fields are init-only in the source, so an envelope is an immutable
    datatype value here. The generic envelope carries exactly one extra field,
    `data`; `Base()` forgets it and gives back the non-generic envelope. */
module Envelope {
  import opened Wrappers

  /** `TResult`: success flag, HTTP-style status code, optional message. */
  datatype TResult = TResult(isSuccess: bool, statusCode: int, message: Option<string>)

  /** `TResult<T>`: `TResult` plus an optional `Data` (null is `None`). */
  datatype TResultOf<+T> = TResultOf(isSuccess: bool, statusCode: int, message: Option<string>, data: Option<T>)
  {
    /** The inherited part of the envelope. */
    function Base(): (b: TResult)
      ensures b.isSuccess == isSuccess && b.statusCode == statusCode && b.message == message
    {
      TResult(isSuccess, statusCode, message)
    }
  }

  /** The six outcome classes the factory knows, each with its own status code. */
  datatype Outcome = OkOutcome | CreatedOutcome | NoContentOutcome | BadRequestOutcome | NotFoundOutcome | ErrorOutcome

  /** The status code the factory writes for each outcome class. */
  function Code(o: Outcome): int
  {
    match o
    case OkOutcome => 200
    case CreatedOutcome => 201
    case NoContentOutcome => 204
    case BadRequestOutcome => 400
    case NotFoundOutcome => 404
    case ErrorOutcome => 500
  }

  /** The success flag the factory writes for each outcome class. */
  predicate Succeeds(o: Outcome)
  {
    o.OkOutcome? || o.CreatedOutcome? || o.NoContentOutcome?
  }

  /** Reading a status code back as an outcome class; the inverse of `Code`. */
  function Classify(code: int): (o: Option<Outcome>)
    ensures o.Some? ==> Code(o.value) == code
    ensures o.None? ==> forall x: Outcome :: Code(x) != code
  {
    if code == 200 then Some(OkOutcome)
    else if code == 201 then Some(CreatedOutcome)
    else if code == 204 then Some(NoContentOutcome)
    else if code == 400 then Some(BadRequestOutcome)
    else if code == 404 then Some(NotFoundOutcome)
    else if code == 500 then Some(ErrorOutcome)
    else None
  }

  /** The codes that count as success: 200, 201 and 204. */
  predicate IsSuccessCode(code: int)
  {
    code == 200 || code == 201 || code == 204
  }

  /** An envelope whose success flag agrees with its status code and whose
      status code is one of the six the factory uses. */
  predicate WellFormed(r: TResult)
  {
    Classify(r.statusCode).Some? && (r.isSuccess <==> IsSuccessCode(r.statusCode))
  }

  /** An envelope of outcome class `o` carrying message `m`. */
  predicate Is(r: TResult, o: Outcome, m: Option<string>)
  {
    Classify(r.statusCode) == Some(o) && r.isSuccess == Succeeds(o) && r.message == m
  }

  // ------------------------------------------------------------------
  // Factory: success outcomes
  // ------------------------------------------------------------------

  function Ok(message: Option<string> := None): (r: TResult)
    ensures Is(r, OkOutcome, message) && WellFormed(r)
  {
    TResult(true, 200, message)
  }

  function OkOf<T>(data: T, message: Option<string> := None): (r: TResultOf<T>)
    ensures Is(r.Base(), OkOutcome, message) && r.data == Some(data)
  {
    TResultOf(true, 200, message, Some(data))
  }

  function Created(message: Option<string> := None): (r: TResult)
    ensures Is(r, CreatedOutcome, message) && WellFormed(r)
  {
    TResult(true, 201, message)
  }

  function CreatedOf<T>(data: T, message: Option<string> := None): (r: TResultOf<T>)
    ensures Is(r.Base(), CreatedOutcome, message) && r.data == Some(data)
  {
    TResultOf(true, 201, message, Some(data))
  }

  function NoContent(message: Option<string> := None): (r: TResult)
    ensures Is(r, NoContentOutcome, message) && WellFormed(r)
  {
    TResult(true, 204, message)
  }

  /** `Data = default`: for the reference types the repositories use, null. */
  function NoContentOf<T>(message: Option<string> := None): (r: TResultOf<T>)
    ensures Is(r.Base(), NoContentOutcome, message) && r.data == None
  {
    TResultOf(true, 204, message, None)
  }

  // ------------------------------------------------------------------
  // Factory: client and server errors (message is mandatory, no data)
  // ------------------------------------------------------------------

  function BadRequest(message: string): (r: TResult)
    ensures Is(r, BadRequestOutcome, Some(message)) && WellFormed(r)
  {
    TResult(false, 400, Some(message))
  }

  function BadRequestOf<T>(message: string): (r: TResultOf<T>)
    ensures Is(r.Base(), BadRequestOutcome, Some(message)) && r.data == None
  {
    TResultOf(false, 400, Some(message), None)
  }

  function NotFound(message: string): (r: TResult)
    ensures Is(r, NotFoundOutcome, Some(message)) && WellFormed(r)
  {
    TResult(false, 404, Some(message))
  }

  function NotFoundOf<T>(message: string): (r: TResultOf<T>)
    ensures Is(r.Base(), NotFoundOutcome, Some(message)) && r.data == None
  {
    TResultOf(false, 404, Some(message), None)
  }

  function Error(message: string): (r: TResult)
    ensures Is(r, ErrorOutcome, Some(message)) && WellFormed(r)
  {
    TResult(false, 500, Some(message))
  }

  function ErrorOf<T>(message: string): (r: TResultOf<T>)
    ensures Is(r.Base(), ErrorOutcome, Some(message)) && r.data == None
  {
    TResultOf(false, 500, Some(message), None)
  }

  // ------------------------------------------------------------------
  // Properties of the factory as a whole
  // ------------------------------------------------------------------

  /** `Classify` undoes `Code`, so no two outcome classes share a status code. */
  lemma ClassifyCode(o: Outcome)
    ensures Classify(Code(o)) == Some(o)
  {
  }

  /** The factory's success flag is exactly "the status code is 200, 201 or 204". */
  lemma SucceedsIffSuccessCode(o: Outcome)
    ensures Succeeds(o) <==> IsSuccessCode(Code(o))
  {
  }

  /** Every envelope built by the factory, generic or not, is well formed:
      it succeeds iff its status code is in {200, 201, 204}. */
  lemma FactoryWellFormed<T>(data: T, m: Option<string>, e: string)
    ensures WellFormed(Ok(m)) && WellFormed(OkOf(data, m).Base())
    ensures WellFormed(Created(m)) && WellFormed(CreatedOf(data, m).Base())
    ensures WellFormed(NoContent(m)) && WellFormed(NoContentOf<T>(m).Base())
    ensures WellFormed(BadRequest(e)) && WellFormed(BadRequestOf<T>(e).Base())
    ensures WellFormed(NotFound(e)) && WellFormed(NotFoundOf<T>(e).Base())
    ensures WellFormed(Error(e)) && WellFormed(ErrorOf<T>(e).Base())
  {
  }

  /** Each generic factory agrees with its non-generic twin on everything but `Data`. */
  lemma GenericAgreesWithBase<T>(data: T, m: Option<string>, e: string)
    ensures OkOf(data, m).Base() == Ok(m)
    ensures CreatedOf(data, m).Base() == Created(m)
    ensures NoContentOf<T>(m).Base() == NoContent(m)
    ensures BadRequestOf<T>(e).Base() == BadRequest(e)
    ensures NotFoundOf<T>(e).Base() == NotFound(e)
    ensures ErrorOf<T>(e).Base() == Error(e)
  {
  }

  /** Only the success factories that are handed data carry data; every other
      factory leaves `Data` at its default. */
  lemma DataOnlyWhenGiven<T>(data: T, m: Option<string>, e: string)
    ensures OkOf(data, m).data == Some(data) && CreatedOf(data, m).data == Some(data)
    ensures NoContentOf<T>(m).data.None? && BadRequestOf<T>(e).data.None?
    ensures NotFoundOf<T>(e).data.None? && ErrorOf<T>(e).data.None?
  {
  }
}

=== FILE: legacy_ef_repository.dfy ===
/** The older relational `EfRepository<T>` of the `solidcode.work.infra` tree
    (Repositories/). It answers with the `Success` / `Fail` envelope of the
    `Play.CommonUtils` factory (the `TResultFactory` of its own tree has no
    such members), and replaces create/update with the `ApplyChangesAsync`
    upsert routed by the entity's `IsNew` marker. Every guard and every
    store failure gives `Fail` with a message; no error type is set. */
module LegacyEfRepository {
  import opened Wrappers
  import opened Store
  import LegacyEnvelope

  type Answer<T> = LegacyEnvelope.TResult<T>

  function IdNotFoundMessage(id: Guid): string
  {
    "Entity with Id " + GuidText(id) + " not found."
  }

  /** The message for an entity type without the upsert marker; `typeName` is
      `typeof(T).Name`. */
  function NotEditableMessage(typeName: string): string
  {
    "Entity of type " + typeName + " must implement IListEditEntity to use ApplyChangesAsync."
  }

  /** A failure as this repository reports it: `Fail` with a message only. */
  predicate Failed<T(==)>(r: Answer<T>, message: string)
  {
    r == LegacyEnvelope.Fail(message)
  }

  /** A success as this repository reports it: `Success` with data and message. */
  predicate Succeeded<T(==)>(r: Answer<T>, data: T, message: string)
  {
    r == LegacyEnvelope.Succeed(Some(data), message)
  }

  /** `GetAllAsync()`: always `Success` with the whole table, possibly empty. */
  function GetAll(s: Store, fault: Fault): (r: Answer<Store>)
    ensures r.success <==> fault.Healthy?
    ensures r.success ==> Succeeded(r, s, "Retrieved all entities.")
    ensures !r.success ==> Failed(r, fault.message)
  {
    if fault.Throws? then LegacyEnvelope.Fail(fault.message)
    else LegacyEnvelope.Succeed(Some(s), "Retrieved all entities.")
  }

  /** `GetAllAsync(filter)`: always `Success` with the matching records, possibly none. */
  function GetAllWhere(s: Store, filter: Entity -> bool, fault: Fault): (r: Answer<Store>)
    ensures r.success <==> fault.Healthy?
    ensures r.success ==> r.data.Some? && forall e :: e in r.data.value <==> e in s && filter(e)
    ensures r.success ==> r.data == Some(Where(s, filter))
    ensures !r.success ==> Failed(r, fault.message)
  {
    if fault.Throws? then LegacyEnvelope.Fail(fault.message)
    else LegacyEnvelope.Succeed(Some(Where(s, filter)), "Filtered entities retrieved.")
  }

  /** `GetAsync(id)`: `Fail` for the empty id and for an absent record,
      otherwise `Success` with the record. */
  function GetById(s: Store, id: Guid, fault: Fault): (r: Answer<Entity>)
    ensures r.success <==> id != EmptyGuid && fault.Healthy? && HasId(s, id)
    ensures id == EmptyGuid ==> Failed(r, "Id cannot be empty")
    ensures id != EmptyGuid && fault.Healthy? && !HasId(s, id) ==> Failed(r, IdNotFoundMessage(id))
    ensures r.success ==> r.data.Some? && r.data.value in s && r.data.value.id == id
    ensures id != EmptyGuid && fault.Throws? ==> Failed(r, fault.message)
  {
    if id == EmptyGuid then LegacyEnvelope.Fail("Id cannot be empty")
    else if fault.Throws? then LegacyEnvelope.Fail(fault.message)
    else match Lookup(s, id)
      case None => LegacyEnvelope.Fail(IdNotFoundMessage(id))
      case Some(e) => LegacyEnvelope.Succeed(Some(e), "Entity found.")
  }

  /** `GetAsync(filter)`: `Success` with the first match, otherwise `Fail`. */
  function GetFirst(s: Store, filter: Entity -> bool, fault: Fault): (r: Answer<Entity>)
    ensures r.success <==> fault.Healthy? && exists e :: e in s && filter(e)
    ensures r.success ==> r.data == FirstOrDefault(s, filter)
    ensures fault.Healthy? && !r.success ==> Failed(r, "No matching entity found.")
    ensures fault.Throws? ==> Failed(r, fault.message)
  {
    if fault.Throws? then LegacyEnvelope.Fail(fault.message)
    else match FirstOrDefault(s, filter)
      case None => LegacyEnvelope.Fail("No matching entity found.")
      case Some(e) => LegacyEnvelope.Succeed(Some(e), "Entity found.")
  }

  /** `ApplyChangesAsync`: `Fail` for null and for an entity without the upsert
      marker, both before the table is touched. With `IsNew` the record is
      added; without it the stored record with the same `Id` has its values
      overwritten, and an absent `Id` is `Fail` with nothing saved. A success
      echoes the argument. */
  function ApplyChanges(s: Store, entity: Option<Entity>, typeName: string, fault: Fault): (r: Step<Answer<Entity>>)
    ensures entity.None? ==> Failed(r.result, "Entity cannot be null") && r.store == s
    ensures entity.Some? && entity.value.listEdit.None? ==> Failed(r.result, NotEditableMessage(typeName)) && r.store == s
    ensures !r.result.success ==> r.store == s && r.result.data.None?
    ensures r.result.success ==> entity.Some? && Succeeded(r.result, entity.value, "Changes saved successfully.")
    ensures entity.Some? && entity.value.listEdit == Some(true) ==>
      (r.result.success <==> fault.Healthy? && !HasId(s, entity.value.id))
    ensures entity.Some? && entity.value.listEdit == Some(true) && r.result.success ==>
      r.store == s + [entity.value]
    ensures entity.Some? && entity.value.listEdit == Some(false) ==>
      (r.result.success <==> fault.Healthy? && HasId(s, entity.value.id))
    ensures entity.Some? && entity.value.listEdit == Some(false) && fault.Healthy? && !HasId(s, entity.value.id) ==>
      Failed(r.result, IdNotFoundMessage(entity.value.id))
    ensures entity.Some? && entity.value.listEdit == Some(false) && r.result.success ==>
      |r.store| == |s| &&
      Lookup(r.store, entity.value.id) == Some(Lookup(s, entity.value.id).value.(fields := entity.value.fields))
    ensures entity.Some? && entity.value.listEdit == Some(false) && r.result.success ==>
      ChangedOnly(s, r.store, entity.value.id)
    ensures UniqueIds(s) ==> UniqueIds(r.store)
    ensures entity.Some? && entity.value.listEdit.Some? && fault.Throws? ==> Failed(r.result, fault.message)
  {
    match entity
    case None => Step(s, LegacyEnvelope.Fail("Entity cannot be null"))
    case Some(e) =>
      match e.listEdit
      case None => Step(s, LegacyEnvelope.Fail(NotEditableMessage(typeName)))
      case Some(isNew) =>
        if fault.Throws? then Step(s, LegacyEnvelope.Fail(fault.message))
        else if isNew then
          match Insert(s, e)
          case None => Step(s, LegacyEnvelope.Fail(DuplicateKeyMessage))
          case Some(s') => Step(s', LegacyEnvelope.Succeed(Some(e), "Changes saved successfully."))
        else
          var w := SetValues(s, e.id, e);
          if w.count == 0 then Step(s, LegacyEnvelope.Fail(IdNotFoundMessage(e.id)))
          else Step(w.store, LegacyEnvelope.Succeed(Some(e), "Changes saved successfully."))
  }

  /** `DeleteAsync`: `Fail` for the empty id and for an absent record, otherwise
      the record is removed and `Success` carries the deleted record. */
  function Delete(s: Store, id: Guid, fault: Fault): (r: Step<Answer<Entity>>)
    ensures r.result.success <==> id != EmptyGuid && fault.Healthy? && HasId(s, id)
    ensures id == EmptyGuid ==> Failed(r.result, "Id cannot be empty")
    ensures id != EmptyGuid && fault.Healthy? && !HasId(s, id) ==> Failed(r.result, IdNotFoundMessage(id))
    ensures !r.result.success ==> r.store == s
    ensures r.result.success ==> r.result.data == Lookup(s, id) && |r.store| == |s| - 1
    ensures r.result.success ==> RemovedOnly(s, r.store, id)
    ensures r.result.success && UniqueIds(s) ==> forall x :: x in r.store <==> x in s && x.id != id
    ensures UniqueIds(s) ==> UniqueIds(r.store)
    ensures id != EmptyGuid && fault.Throws? ==> Failed(r.result, fault.message)
  {
    if id == EmptyGuid then Step(s, LegacyEnvelope.Fail("Id cannot be empty"))
    else if fault.Throws? then Step(s, LegacyEnvelope.Fail(fault.message))
    else match Lookup(s, id)
      case None => Step(s, LegacyEnvelope.Fail(IdNotFoundMessage(id)))
      case Some(e) =>
        var w := DeleteOne(s, id);
        Step(w.store, LegacyEnvelope.Succeed(Some(e), "Entity deleted successfully."))
  }
}

=== FILE: legacy_envelope.dfy ===
/** The older result envelope of the `Play.CommonUtils` tree: `BaseResponseViewModel`,
    its generic subclass `TResult<T>`, and the `Success` / `Fail` factory.

    The C# class has settable properties; the model treats an envelope as the
    value the factory hands back. Unset reference properties are `None` (null),
    an unset `int` is 0 and an unset `bool` is false. */
module LegacyEnvelope {
  import opened Wrappers

  /** `MessageErrorType` (same seven members in both trees). */
  datatype MessageErrorType = Success | Failed | NotFound | Validation | Exception | ReadDatabase | ListEmpty

  /** `OutputItem` is not part of this model; only the emptiness of the list matters. */
  datatype OutputItem = OutputItem

  /** `TResult<T>` with the seven fields inherited from `BaseResponseViewModel`
      followed by its own `Data` and `OutputItems`. */
  datatype TResult<+T> = TResult(
    requestSuccess: bool,
    success: bool,
    message: Option<string>,
    warning: Option<string>,
    fkey: Option<string>,
    pkIntValue: int,
    messageErrorType: Option<MessageErrorType>,
    data: Option<T>,
    outputItems: seq<OutputItem>)

  /** The stand-in for C#'s `object`, the data type of the non-generic factory methods. */
  datatype Object = Object

  /** The parameterless constructor. `blank` is the value of `new T()`. */
  function New<T>(blank: T): (r: TResult<T>)
    ensures r.outputItems == [] && r.data == Some(blank)
    ensures !r.requestSuccess && !r.success && r.pkIntValue == 0
    ensures r.message.None? && r.warning.None? && r.fkey.None? && r.messageErrorType.None?
  {
    TResult(false, false, None, None, None, 0, None, Some(blank), [])
  }

  /** The fields an object initializer sets on top of `New`: `Data` is always
      overwritten, so the value of `new T()` never survives the factory. */
  function Init<T>(requestSuccess: bool, success: bool, message: string, errorType: Option<MessageErrorType>, data: Option<T>): TResult<T>
  {
    TResult(requestSuccess, success, Some(message), None, None, 0, errorType, data, [])
  }

  /** `Success<T>(data, message = "")`. */
  function Succeed<T>(data: Option<T>, message: string := ""): (r: TResult<T>)
    ensures r.success && r.requestSuccess
    ensures r.data == data && r.message == Some(message)
    ensures r.messageErrorType.None? && r.outputItems == []
  {
    Init(true, true, message, None, data)
  }

  /** `Fail<T>(message = "", errorType = null)`. */
  function Fail<T>(message: string := "", errorType: Option<MessageErrorType> := None): (r: TResult<T>)
    ensures !r.success && r.requestSuccess
    ensures r.data.None? && r.message == Some(message)
    ensures r.messageErrorType == errorType && r.outputItems == []
  {
    Init(true, false, message, errorType, None)
  }

  /** Non-generic `Success(message = "")`: the generic form at `object` with null data. */
  function SucceedUntyped(message: string := ""): (r: TResult<Object>)
    ensures r.success && r.requestSuccess && r.data.None? && r.message == Some(message)
  {
    Succeed<Object>(None, message)
  }

  /** Non-generic `Fail(message = "", errorType = null)`: the generic form at `object`. */
  function FailUntyped(message: string := "", errorType: Option<MessageErrorType> := None): (r: TResult<Object>)
    ensures !r.success && r.requestSuccess && r.data.None?
    ensures r.message == Some(message) && r.messageErrorType == errorType
  {
    Fail<Object>(message, errorType)
  }

  /** `RequestSuccess` is true on every envelope the factory builds, so it cannot
      tell success from failure; only `Success` does, and it does so exactly. */
  lemma RequestSuccessAlwaysSet<T>(data: Option<T>, m: string, e: Option<MessageErrorType>)
    ensures Succeed(data, m).requestSuccess && Fail<T>(m, e).requestSuccess
    ensures Succeed(data, m).success && !Fail<T>(m, e).success
    ensures Succeed(data, m) != Fail<T>(m, e)
  {
  }

  /** The defaults of the optional parameters: message "" and no error type. */
  lemma Defaults<T>(data: Option<T>)
    ensures Succeed(data).message == Some("")
    ensures Fail<T>().message == Some("") && Fail<T>().messageErrorType.None?
    ensures SucceedUntyped().message == Some("") && FailUntyped().messageErrorType.None?
  {
  }
}

=== FILE: legacy_mongo_repository.dfy ===
/** The older `MongoRepository<T>` of the `solidcode.work.infra` tree
    (Repositories/). It has the query and command set of the later document
    repository minus the echoing commands and `SaveChangesAsync`, with the same
    guards, status codes and messages, so each operation is defined by the
    later one and its contract restates the behaviour the older file shows. */
module LegacyMongoRepository {
  import opened Wrappers
  import opened Store
  import opened Envelope
  import MongoRepository

  /** `GetAllAsync()`: 204 when empty, otherwise 200 with the documents. */
  function GetAll(s: Store, fault: Fault): (r: TResultOf<Store>)
    ensures r.statusCode == 204 <==> fault.Healthy? && s == []
    ensures r.statusCode == 200 <==> fault.Healthy? && s != []
    ensures r.statusCode == 200 ==> r.data == Some(s)
    ensures fault.Throws? ==> Is(r.Base(), ErrorOutcome, Some(fault.message))
  {
    MongoRepository.GetAll(s, fault)
  }

  /** `GetAllAsync(filter)`: 204 when nothing matches, otherwise 200 with the matches. */
  function GetAllWhere(s: Store, filter: Entity -> bool, fault: Fault): (r: TResultOf<Store>)
    ensures r.statusCode == 204 <==> fault.Healthy? && forall e :: e in s ==> !filter(e)
    ensures r.statusCode == 200 <==> fault.Healthy? && exists e :: e in s && filter(e)
    ensures r.statusCode == 200 ==> r.data.Some? && forall e :: e in r.data.value <==> e in s && filter(e)
    ensures fault.Throws? ==> Is(r.Base(), ErrorOutcome, Some(fault.message))
    ensures r.statusCode == 200 ==> r.data == Some(Where(s, filter))
  {
    MongoRepository.GetAllWhere(s, filter, fault)
  }

  /** `GetAsync(id)`: empty id 400, absent 404, present 200. */
  function GetById(s: Store, id: Guid, fault: Fault): (r: TResultOf<Entity>)
    ensures r.statusCode == 400 <==> id == EmptyGuid
    ensures r.statusCode == 404 <==> id != EmptyGuid && fault.Healthy? && !HasId(s, id)
    ensures r.statusCode == 200 <==> id != EmptyGuid && fault.Healthy? && HasId(s, id)
    ensures r.isSuccess ==> r.data == Lookup(s, id)
    ensures id != EmptyGuid && fault.Throws? ==> Is(r.Base(), ErrorOutcome, Some(fault.message))
  {
    MongoRepository.GetById(s, id, fault)
  }

  /** `GetAsync(filter)`: 200 with the first match, otherwise 404. */
  function GetFirst(s: Store, filter: Entity -> bool, fault: Fault): (r: TResultOf<Entity>)
    ensures r.statusCode == 404 <==> fault.Healthy? && forall e :: e in s ==> !filter(e)
    ensures r.statusCode == 200 <==> fault.Healthy? && exists e :: e in s && filter(e)
    ensures r.isSuccess ==> r.data == FirstOrDefault(s, filter)
    ensures fault.Throws? ==> Is(r.Base(), ErrorOutcome, Some(fault.message))
  {
    MongoRepository.GetFirst(s, filter, fault)
  }

  /** `CreateAsync`: null 400, otherwise inserted and 201. */
  function Create(s: Store, entity: Option<Entity>, fault: Fault): (r: Step<TResult>)
    ensures r.result.statusCode == 400 <==> entity.None?
    ensures r.result.statusCode == 201 <==> entity.Some? && fault.Healthy? && !HasId(s, entity.value.id)
    ensures r.result.statusCode == 201 ==> r.store == s + [entity.value]
    ensures r.result.statusCode != 201 ==> r.store == s
    ensures entity.Some? && fault.Throws? ==> Is(r.result, ErrorOutcome, Some(fault.message))
  {
    MongoRepository.Create(s, entity, fault)
  }

  /** `UpdateAsync`: null or empty `Id` 400, zero matched 404, else a full replace and 200. */
  function Update(s: Store, entity: Option<Entity>, fault: Fault): (r: Step<TResult>)
    ensures r.result.statusCode == 400 <==> entity.None? || entity.value.id == EmptyGuid
    ensures r.result.statusCode == 404 <==> entity.Some? && entity.value.id != EmptyGuid && fault.Healthy? && !HasId(s, entity.value.id)
    ensures r.result.statusCode == 200 <==> entity.Some? && entity.value.id != EmptyGuid && fault.Healthy? && HasId(s, entity.value.id)
    ensures entity.Some? && entity.value.id != EmptyGuid && fault.Throws? ==> Is(r.result, ErrorOutcome, Some(fault.message))
    ensures r.result.statusCode == 200 ==> |r.store| == |s| && Lookup(r.store, entity.value.id) == entity
    ensures r.result.statusCode == 200 ==> ChangedOnly(s, r.store, entity.value.id)
    ensures r.result.statusCode == 200 && UniqueIds(s) ==>
      forall x :: x in r.store <==> (x in s && x.id != entity.value.id) || x == entity.value
    ensures r.result.statusCode != 200 ==> r.store == s
  {
    MongoRepository.Update(s, entity, fault)
  }

  /** `DeleteAsync`: empty 400, deleted count 0 gives 404, otherwise removed and 200;
      a store failure is 500 with its message. */
  function Delete(s: Store, id: Guid, fault: Fault): (r: Step<TResult>)
    ensures r.result.statusCode == 400 <==> id == EmptyGuid
    ensures r.result.statusCode == 404 <==> id != EmptyGuid && fault.Healthy? && !HasId(s, id)
    ensures r.result.statusCode == 200 <==> id != EmptyGuid && fault.Healthy? && HasId(s, id)
    ensures id != EmptyGuid && fault.Throws? ==> Is(r.result, ErrorOutcome, Some(fault.message))
    ensures r.result.statusCode == 200 ==> RemovedOnly(s, r.store, id)
    ensures r.result.statusCode == 200 && UniqueIds(s) ==> forall x :: x in r.store <==> x in s && x.id != id
    ensures r.result.statusCode != 200 ==> r.store == s
  {
    MongoRepository.Delete(s, id, fault)
  }
}

=== FILE: mongo_repository.dfy ===
/** `MongoRepository<T>` of the `solidcode.work.infra` tree (Mongo/): the
    document repository that answers with `TResult` envelopes. Documents are
    inserted, replaced and deleted one at a time by an `Id` equality filter;
    there is no unit of work, so each command takes effect at once. */
module MongoRepository {
  import opened Wrappers
  import opened Store
  import opened Envelope

  const IdEmptyMessage: string := "Id cannot be empty."
  const EntityNullMessage: string := "Entity cannot be null."
  const EntityIdEmptyMessage: string := "Entity Id cannot be empty."

  function IdNotFoundMessage(id: Guid): string
  {
    "Entity with Id " + GuidText(id) + " not found."
  }

  /** The list answer shared by both `GetAllAsync` overloads: 204 when nothing
      was found, else 200 with the documents. */
  function ListResult(data: Store, emptyMessage: string, okMessage: string, fault: Fault): (r: TResultOf<Store>)
    ensures WellFormed(r.Base())
    ensures r.isSuccess <==> fault.Healthy?
    ensures r.statusCode == 204 <==> fault.Healthy? && data == []
    ensures r.statusCode == 204 ==> r.data.None? && r.message == Some(emptyMessage)
    ensures r.statusCode == 200 <==> fault.Healthy? && data != []
    ensures r.statusCode == 200 ==> r.data == Some(data) && r.message == Some(okMessage)
    ensures r.statusCode == 500 ==> r.message == Some(fault.message)
    ensures fault.Throws? ==> Is(r.Base(), ErrorOutcome, Some(fault.message)) && r.data.None?
  {
    if fault.Throws? then ErrorOf(fault.message)
    else if |data| == 0 then NoContentOf(Some(emptyMessage))
    else OkOf(data, Some(okMessage))
  }

  /** `GetAllAsync()`: 204 for an empty collection, else 200 with every document. */
  function GetAll(s: Store, fault: Fault): (r: TResultOf<Store>)
    ensures r.statusCode == 204 <==> fault.Healthy? && s == []
    ensures r.statusCode == 200 <==> fault.Healthy? && s != []
    ensures r.statusCode == 200 ==> r.data == Some(s)
    ensures r.statusCode == 204 ==> r.data.None?
    ensures fault.Throws? ==> Is(r.Base(), ErrorOutcome, Some(fault.message))
  {
    ListResult(s, "No entities found.", "Entities retrieved successfully.", fault)
  }

  /** `GetAllAsync(filter)`: 204 when no document matches, else 200 with the matches. */
  function GetAllWhere(s: Store, filter: Entity -> bool, fault: Fault): (r: TResultOf<Store>)
    ensures r.statusCode == 204 <==> fault.Healthy? && forall e :: e in s ==> !filter(e)
    ensures r.statusCode == 200 <==> fault.Healthy? && exists e :: e in s && filter(e)
    ensures r.statusCode == 200 ==> r.data.Some? && forall e :: e in r.data.value <==> e in s && filter(e)
    ensures r.statusCode == 200 ==> r.data == Some(Where(s, filter))
    ensures fault.Throws? ==> Is(r.Base(), ErrorOutcome, Some(fault.message))
  {
    var found := Where(s, filter);
    assert found == [] <==> forall e :: e in s ==> !filter(e) by {
      if found != [] { assert found[0] in found; }
    }
    ListResult(found, "No matching entities found.", "Filtered entities retrieved successfully.", fault)
  }

  /** `GetAsync(id)` (`include` is ignored): 400 for the empty id, 404 when no
      document has the id, else 200 with it. */
  function GetById(s: Store, id: Guid, fault: Fault): (r: TResultOf<Entity>)
    ensures WellFormed(r.Base())
    ensures r.statusCode == 400 <==> id == EmptyGuid
    ensures r.statusCode == 500 <==> id != EmptyGuid && fault.Throws?
    ensures r.statusCode == 404 <==> id != EmptyGuid && fault.Healthy? && !HasId(s, id)
    ensures r.statusCode == 200 <==> id != EmptyGuid && fault.Healthy? && HasId(s, id)
    ensures r.isSuccess ==> r.data.Some? && r.data.value in s && r.data.value.id == id
    ensures id != EmptyGuid && fault.Throws? ==> Is(r.Base(), ErrorOutcome, Some(fault.message))
  {
    if id == EmptyGuid then BadRequestOf(IdEmptyMessage)
    else if fault.Throws? then ErrorOf(fault.message)
    else match Lookup(s, id)
      case None => NotFoundOf(IdNotFoundMessage(id))
      case Some(e) => OkOf(e, Some("Entity found."))
  }

  /** `GetAsync(filter)`: 200 with the first matching document, else 404. */
  function GetFirst(s: Store, filter: Entity -> bool, fault: Fault): (r: TResultOf<Entity>)
    ensures WellFormed(r.Base())
    ensures r.statusCode == 500 <==> fault.Throws?
    ensures r.statusCode == 404 <==> fault.Healthy? && forall e :: e in s ==> !filter(e)
    ensures r.statusCode == 200 <==> fault.Healthy? && exists e :: e in s && filter(e)
    ensures r.isSuccess ==> r.data == FirstOrDefault(s, filter)
    ensures fault.Throws? ==> Is(r.Base(), ErrorOutcome, Some(fault.message))
  {
    if fault.Throws? then ErrorOf(fault.message)
    else match FirstOrDefault(s, filter)
      case None => NotFoundOf("No matching entity found.")
      case Some(e) => OkOf(e, Some("Entity found."))
  }

  /** `CreateAsync`: 400 for null, else the document is inserted and the answer
      is 201; an insert the collection refuses is 500. */
  function Create(s: Store, entity: Option<Entity>, fault: Fault): (r: Step<TResult>)
    ensures WellFormed(r.result)
    ensures entity.None? ==> Is(r.result, BadRequestOutcome, Some(EntityNullMessage))
    ensures r.result.statusCode == 201 <==> entity.Some? && fault.Healthy? && !HasId(s, entity.value.id)
    ensures r.result.statusCode == 201 ==> r.store == s + [entity.value]
    ensures r.result.statusCode != 201 ==> r.store == s
    ensures UniqueIds(s) ==> UniqueIds(r.store)
    ensures entity.Some? && fault.Throws? ==> Is(r.result, ErrorOutcome, Some(fault.message))
  {
    match entity
    case None => Step(s, BadRequest(EntityNullMessage))
    case Some(e) =>
      if fault.Throws? then Step(s, Error(fault.message))
      else match Insert(s, e)
        case None => Step(s, Error(DuplicateKeyMessage))
        case Some(s') => Step(s', Created(Some("Entity created successfully.")))
  }

  /** `CreateAndReturnAsync`: as `Create`, echoing the document on 201. */
  function CreateAndReturn(s: Store, entity: Option<Entity>, fault: Fault): (r: Step<TResultOf<Entity>>)
    ensures r.result.Base() == Create(s, entity, fault).result
    ensures r.store == Create(s, entity, fault).store
    ensures r.result.isSuccess ==> r.result.data == entity
  {
    match entity
    case None => Step(s, BadRequestOf(EntityNullMessage))
    case Some(e) =>
      if fault.Throws? then Step(s, ErrorOf(fault.message))
      else match Insert(s, e)
        case None => Step(s, ErrorOf(DuplicateKeyMessage))
        case Some(s') => Step(s', CreatedOf(e, Some("Entity created successfully.")))
  }

  /** `UpdateAsync`: 400 for null or an empty `Id`; a replace that matches no
      document is 404 and changes nothing; otherwise the document with that
      `Id` is wholly replaced by the argument and the answer is 200. */
  function Update(s: Store, entity: Option<Entity>, fault: Fault): (r: Step<TResult>)
    ensures WellFormed(r.result)
    ensures r.result.statusCode == 400 <==> entity.None? || entity.value.id == EmptyGuid
    ensures r.result.statusCode == 500 <==> entity.Some? && entity.value.id != EmptyGuid && fault.Throws?
    ensures r.result.statusCode == 404 <==> entity.Some? && entity.value.id != EmptyGuid && fault.Healthy? && !HasId(s, entity.value.id)
    ensures r.result.statusCode == 200 <==> entity.Some? && entity.value.id != EmptyGuid && fault.Healthy? && HasId(s, entity.value.id)
    ensures r.result.statusCode != 200 ==> r.store == s
    ensures r.result.statusCode == 200 ==> |r.store| == |s| && Lookup(r.store, entity.value.id) == entity
    ensures r.result.statusCode == 200 ==> ChangedOnly(s, r.store, entity.value.id)
    ensures r.result.statusCode == 200 && UniqueIds(s) ==>
      forall x :: x in r.store <==> (x in s && x.id != entity.value.id) || x == entity.value
    ensures UniqueIds(s) ==> UniqueIds(r.store)
    ensures entity.Some? && entity.value.id != EmptyGuid && fault.Throws? ==> Is(r.result, ErrorOutcome, Some(fault.message))
  {
    match entity
    case None => Step(s, BadRequest(EntityNullMessage))
    case Some(e) =>
      if e.id == EmptyGuid then Step(s, BadRequest(EntityIdEmptyMessage))
      else if fault.Throws? then Step(s, Error(fault.message))
      else
        var w := ReplaceOne(s, e.id, e);
        if w.count == 0 then Step(s, NotFound(IdNotFoundMessage(e.id)))
        else Step(w.store, Ok(Some("Entity updated successfully.")))
  }

  /** `UpdateAndReturnAsync`: as `Update`, echoing the argument on 200. */
  function UpdateAndReturn(s: Store, entity: Option<Entity>, fault: Fault): (r: Step<TResultOf<Entity>>)
    ensures r.result.Base() == Update(s, entity, fault).result
    ensures r.store == Update(s, entity, fault).store
    ensures r.result.isSuccess ==> r.result.data == entity
  {
    match entity
    case None => Step(s, BadRequestOf(EntityNullMessage))
    case Some(e) =>
      if e.id == EmptyGuid then Step(s, BadRequestOf(EntityIdEmptyMessage))
      else if fault.Throws? then Step(s, ErrorOf(fault.message))
      else
        var w := ReplaceOne(s, e.id, e);
        if w.count == 0 then Step(s, NotFoundOf(IdNotFoundMessage(e.id)))
        else Step(w.store, OkOf(e, Some("Entity updated successfully.")))
  }

  /** `DeleteAsync`: 400 for the empty id, 404 when nothing was deleted, else
      the document is gone and the answer is 200. */
  function Delete(s: Store, id: Guid, fault: Fault): (r: Step<TResult>)
    ensures WellFormed(r.result)
    ensures r.result.statusCode == 400 <==> id == EmptyGuid
    ensures r.result.statusCode == 500 <==> id != EmptyGuid && fault.Throws?
    ensures r.result.statusCode == 404 <==> id != EmptyGuid && fault.Healthy? && !HasId(s, id)
    ensures r.result.statusCode == 200 <==> id != EmptyGuid && fault.Healthy? && HasId(s, id)
    ensures r.result.statusCode != 200 ==> r.store == s
    ensures r.result.statusCode == 200 ==> |r.store| == |s| - 1 && RemovedOnly(s, r.store, id)
    ensures r.result.statusCode == 200 && UniqueIds(s) ==> forall x :: x in r.store <==> x in s && x.id != id
    ensures UniqueIds(s) ==> UniqueIds(r.store)
    ensures id != EmptyGuid && fault.Throws? ==> Is(r.result, ErrorOutcome, Some(fault.message))
  {
    if id == EmptyGuid then Step(s, BadRequest(IdEmptyMessage))
    else if fault.Throws? then Step(s, Error(fault.message))
    else
      var w := DeleteOne(s, id);
      if w.count == 0 then Step(s, NotFound(IdNotFoundMessage(id)))
      else Step(w.store, Ok(Some("Entity deleted successfully.")))
  }

  /** `SaveChangesAsync`: the document store has no unit of work; always 200,
      and the collection is untouched. */
  function SaveChanges(s: Store): (r: Step<TResult>)
    ensures r.store == s && Is(r.result, OkOutcome, None)
  {
    Step(s, Ok())
  }
}

=== FILE: paging.dfy ===
/** Paging: `PagedRequestDto` (the page a client asks for), the
    `ToPagedResultAsync` helper (a count plus a skip/take window over a query)
    and `PagedResult<T>` (the page with its page-count arithmetic).

    C# `int` is 32-bit and the arithmetic is unchecked, so the skip offset is
    computed with explicit wrap-around. `TotalPages` uses floating-point
    `Math.Ceiling`; for 32-bit operands the quotient is exact enough that this
    is integer ceiling division, which is what the model computes. */
module Paging {
  const TwoTo32: int := 0x1_0000_0000
  const Int32Max: int := 0x7FFF_FFFF

  newtype int32 = x: int | -0x8000_0000 <= x < 0x8000_0000

  predicate InInt32(x: int)
  {
    -0x8000_0000 <= x < 0x8000_0000
  }

  function Min(a: int, b: int): int { if a <= b then a else b }
  function Max(a: int, b: int): int { if a <= b then b else a }

  // ------------------------------------------------------------------
  // Integer arithmetic
  // ------------------------------------------------------------------

  /** The result of unchecked 32-bit arithmetic whose exact value is `x`: the
      one 32-bit value congruent to `x` modulo 2^32. */
  function Wrap32(x: int): (r: int32)
    ensures InInt32(x) ==> r as int == x
    ensures (r as int - x) % TwoTo32 == 0
  {
    var y := x + 0x8000_0000;
    var m := y % TwoTo32;
    MultipleMod(-(y / TwoTo32));
    (m - 0x8000_0000) as int32
  }

  lemma MultipleMod(k: int)
    ensures (k * TwoTo32) % TwoTo32 == 0
  {
  }

  /** Ceiling of `a / b` for a positive divisor (`Math.Ceiling(a / (double)b)`). */
  function CeilDiv(a: int, b: int): (c: int)
    requires b > 0
    ensures (c - 1) * b < a <= c * b
  {
    var q := (-a) / b;
    assert -a == q * b + (-a) % b;
    -q
  }

  /** Multiplying by a non-negative factor keeps the order. */
  lemma MulLe(a: int, b: int, c: int)
    requires a <= b && c >= 0
    ensures a * c <= b * c
  {
    var d := b - a;
    assert b * c == a * c + d * c;
  }

  /** For a positive factor `b`, the product `a * b` is positive exactly when `a` is. */
  lemma PositiveProduct(a: int, b: int)
    ensures b > 0 ==> (a * b > 0 <==> a > 0)
  {
    if b > 0 {
      if a > 0 { MulLe(1, a, b); } else { MulLe(a, 0, b); }
    }
  }

  /** When `c` is the ceiling of `t / b`, a whole number `n` is below `c`
      exactly when `n` full blocks of `b` fall short of `t`. */
  lemma BelowCeiling(n: int, c: int, b: int, t: int)
    requires b > 0 && (c - 1) * b < t <= c * b
    ensures n < c <==> n * b < t
  {
    if n < c { MulLe(n, c - 1, b); } else { MulLe(c, n, b); }
  }

  /** A 32-bit dividend gives a 32-bit ceiling. */
  lemma CeilDivInt32(a: int, b: int)
    requires b > 0 && InInt32(a)
    ensures InInt32(CeilDiv(a, b))
  {
    var c := CeilDiv(a, b);
    if c >= 1 {
      MulLe(1, b, c - 1);
    } else {
      MulLe(1, b, -c);
    }
  }

  // ------------------------------------------------------------------
  // PagedRequestDto
  // ------------------------------------------------------------------

  /** `(pageNumber - 1) * pageSize` in unchecked 32-bit arithmetic: the offset
      of the first record of a page. */
  function Offset(pageNumber: int32, pageSize: int32): int32
  {
    Wrap32((pageNumber as int - 1) * pageSize as int)
  }

  /** `PagedRequestDto`: the page number and page size a client asks for. */
  datatype PagedRequest = PagedRequest(pageNumber: int32, pageSize: int32)
  {
    /** `Skip`: how many records precede the requested page, that is
        `(pageNumber - 1) * pageSize` as unchecked 32-bit arithmetic gives it. */
    function Skip(): (r: int32)
      ensures (r as int - (pageNumber as int - 1) * pageSize as int) % TwoTo32 == 0
      ensures InInt32((pageNumber as int - 1) * pageSize as int) ==> r as int == (pageNumber as int - 1) * pageSize as int
    {
      Offset(pageNumber, pageSize)
    }
  }

  /** A request with nothing set: page 1 of 20, which skips nothing. */
  function DefaultRequest(): (r: PagedRequest)
    ensures r.pageNumber == 1 && r.pageSize == 20
    ensures r.Skip() == 0
  {
    PagedRequest(1, 20)
  }

  /** The next page starts exactly one page size further on, modulo 2^32, and
      exactly when neither offset wraps. */
  lemma NextPageSkip(n: int32, size: int32)
    requires n as int < Int32Max
    ensures var here := PagedRequest(n, size).Skip() as int;
            var next := PagedRequest(n + 1, size).Skip() as int;
            (next - here - size as int) % TwoTo32 == 0
    ensures var here := (n as int - 1) * size as int;
            InInt32(here) && InInt32(here + size as int) ==>
              PagedRequest(n + 1, size).Skip() as int == PagedRequest(n, size).Skip() as int + size as int
  {
    var x := (n as int - 1) * size as int;
    var y := (n as int) * size as int;
    assert y == x + size as int;
    var here := Wrap32(x) as int;
    var next := Wrap32(y) as int;
    var a := (here - x) / TwoTo32;
    var b := (next - y) / TwoTo32;
    assert here - x == a * TwoTo32;
    assert next - y == b * TwoTo32;
    assert next - here - size as int == (b - a) * TwoTo32;
    MultipleMod(b - a);
  }

  // ------------------------------------------------------------------
  // Skip / Take
  // ------------------------------------------------------------------

  /** `Skip(skip).Take(take)` over a sequence; a negative count acts as zero. */
  function Window<T>(q: seq<T>, skip: int, take: int): (w: seq<T>)
    ensures |w| == Min(Max(take, 0), Max(0, |q| - Max(skip, 0)))
    ensures forall i :: 0 <= i < |w| ==> w[i] == q[Max(skip, 0) + i]
  {
    var lo := Min(Max(skip, 0), |q|);
    var hi := Min(lo + Max(take, 0), |q|);
    q[lo..hi]
  }

  // ------------------------------------------------------------------
  // PagedResult
  // ------------------------------------------------------------------

  /** `PagedResult<T>`: one page of items and where it sits in the whole. */
  datatype PagedResult<T> = PagedResult(items: seq<T>, pageNumber: int32, pageSize: int32, totalCount: int32)
  {
    /** `TotalPages`: the fewest pages of `pageSize` that hold `totalCount` records. */
    function TotalPages(): (tp: int32)
      requires pageSize > 0
      ensures (tp as int - 1) * pageSize as int < totalCount as int <= tp as int * pageSize as int
    {
      CeilDivInt32(totalCount as int, pageSize as int);
      CeilDiv(totalCount as int, pageSize as int) as int32
    }

    /** `HasPreviousPage`: with a positive page size, some records come
        before this page. */
    predicate HasPreviousPage()
      ensures pageSize > 0 ==> (HasPreviousPage() <==> (pageNumber as int - 1) * pageSize as int > 0)
    {
      PositiveProduct(pageNumber as int - 1, pageSize as int);
      pageNumber > 1
    }

    /** `HasNextPage`: some records come after this page. */
    predicate HasNextPage()
      requires pageSize > 0
      ensures HasNextPage() <==> pageNumber as int * pageSize as int < totalCount as int
    {
      var tp := TotalPages();
      BelowCeiling(pageNumber as int, tp as int, pageSize as int, totalCount as int);
      pageNumber < tp
    }
  }

  /** With no records there are no pages, and no next page from any page at or
      after 0; with records, the last page is partly or wholly filled. */
  lemma TotalPagesBounds<T>(r: PagedResult<T>)
    requires r.pageSize > 0
    ensures r.totalCount == 0 ==> r.TotalPages() == 0 && (r.pageNumber >= 0 ==> !r.HasNextPage())
    ensures r.totalCount > 0 ==> r.TotalPages() > 0
  {
    var tp := r.TotalPages() as int;
    var ps := r.pageSize as int;
    if tp < 0 {
      MulLe(tp, -1, ps);
    } else if tp > 0 {
      MulLe(0, tp - 1, ps);
    } else {
      assert tp * ps == 0;
    }
  }

  /** `ToPagedResultAsync`: the count of the whole query, and the window of at
      most `pageSize` records starting after `(pageNumber - 1) * pageSize`
      of them. Both reads see the same query. */
  function ToPagedResult<T>(query: seq<T>, pageNumber: int32, pageSize: int32): (r: PagedResult<T>)
    requires |query| <= Int32Max
    ensures r.totalCount as int == |query|
    ensures r.pageNumber == pageNumber && r.pageSize == pageSize
    ensures var skip := Max(Offset(pageNumber, pageSize) as int, 0);
      |r.items| == Min(Max(pageSize as int, 0), Max(0, r.totalCount as int - skip)) &&
      forall i :: 0 <= i < |r.items| ==> r.items[i] == query[skip + i]
  {
    var items := Window(query, Offset(pageNumber, pageSize) as int, pageSize as int);
    PagedResult(items, pageNumber, pageSize, |query| as int32)
  }

  /** Page `k` of size `ps`, counted from 1, with exact arithmetic. */
  function Page<T>(q: seq<T>, k: nat, ps: nat): seq<T>
    requires k >= 1 && ps >= 1
  {
    Window(q, (k - 1) * ps, ps)
  }

  /** Pages 1 to `n`, in order. */
  function Pages<T>(q: seq<T>, n: nat, ps: nat): seq<T>
    requires ps >= 1
  {
    if n == 0 then [] else Pages(q, n - 1, ps) + Page(q, n, ps)
  }

  /** When its offset does not wrap, the helper returns exactly page `k`. */
  lemma ToPagedResultIsPage<T>(q: seq<T>, k: int32, ps: int32)
    requires |q| <= Int32Max && k >= 1 && ps >= 1
    requires InInt32((k as int - 1) * ps as int)
    ensures ToPagedResult(q, k, ps).items == Page(q, k as nat, ps as nat)
  {
  }

  /** A page is the slice of the query between its bounds, each capped at the end. */
  lemma PageSlice<T>(q: seq<T>, k: nat, ps: nat)
    requires k >= 1 && ps >= 1
    ensures Page(q, k, ps) == q[Min((k - 1) * ps, |q|)..Min(k * ps, |q|)]
  {
    assert (k - 1) * ps + ps == k * ps;
  }

  /** Pages 1 to `n` together are the first `n * ps` records. */
  lemma {:induction false} PagesPrefix<T>(q: seq<T>, n: nat, ps: nat)
    requires ps >= 1
    ensures Pages(q, n, ps) == q[..Min(n * ps, |q|)]
  {
    if n > 0 {
      PagesPrefix(q, n - 1, ps);
      PageSlice(q, n, ps);
      var lo := Min((n - 1) * ps, |q|);
      var hi := Min(n * ps, |q|);
      assert (n - 1) * ps <= n * ps;
      assert q[..lo] + q[lo..hi] == q[..hi];
    }
  }

  /** Pages 1 to `TotalPages` reproduce the whole query, none of them is
      empty, and the page after the last is empty. */
  lemma PagesPartition<T>(q: seq<T>, ps: int32)
    requires |q| <= Int32Max && ps >= 1
    ensures var tp := ToPagedResult(q, 1, ps).TotalPages() as nat;
      var n := ps as nat;
      Pages(q, tp, n) == q &&
      (forall k: nat :: 1 <= k <= tp ==> |Page(q, k, n)| > 0) &&
      Page(q, tp + 1, n) == []
  {
    var r := ToPagedResult(q, 1, ps);
    TotalPagesBounds(r);
    var tp := r.TotalPages() as nat;
    var n := ps as nat;
    PagesPrefix(q, tp, n);
    assert |q| <= tp * n;
    assert q[..|q|] == q;
    forall k | 1 <= k <= tp
      ensures |Page(q, k, n)| > 0
    {
      MulLe(k - 1, tp - 1, n);
    }
  }

  /** Record `j` of the query is item `j % ps` of page `j / ps + 1`. */
  lemma PageOfIndex<T>(q: seq<T>, j: nat, ps: nat)
    requires j < |q| && ps >= 1
    ensures var k := j / ps + 1;
      j % ps < |Page(q, k, ps)| && Page(q, k, ps)[j % ps] == q[j]
  {
    var d := j / ps;
    var i := j % ps;
    assert d * ps + i == j && i < ps;
    assert Position(d + 1, ps, i) == j;
    assert i < |Page(q, d + 1, ps)|;
    PageItem(q, d + 1, ps, i);
  }

  /** The position in the query of item `i` of page `k`. */
  function Position(k: nat, ps: nat, i: nat): nat
    requires k >= 1
  {
    (k - 1) * ps + i
  }

  /** Item `i` of page `k` is the record at `Position(k, ps, i)`, and a page
      has fewer than `ps` items. */
  lemma PageItem<T>(q: seq<T>, k: nat, ps: nat, i: nat)
    requires k >= 1 && ps >= 1 && i < |Page(q, k, ps)|
    ensures i < ps && Position(k, ps, i) < |q| && Page(q, k, ps)[i] == q[Position(k, ps, i)]
  {
  }

  /** Items on different pages have different positions. */
  lemma PositionsDistinct(ps: nat, k1: nat, i1: nat, k2: nat, i2: nat)
    requires ps >= 1 && k1 >= 1 && k2 >= 1 && k1 != k2 && i1 < ps && i2 < ps
    ensures Position(k1, ps, i1) != Position(k2, ps, i2)
  {
    if k1 < k2 {
      assert (k1 - 1) * ps + ps == k1 * ps;
      MulLe(k1, k2 - 1, ps);
    } else {
      assert (k2 - 1) * ps + ps == k2 * ps;
      MulLe(k2, k1 - 1, ps);
    }
  }

  /** Distinct pages hold distinct records of the query: item `i1` of page
      `k1` and item `i2` of another page `k2` are the records at two different
      positions of the query. */
  lemma PagesDisjoint<T>(q: seq<T>, ps: nat, k1: nat, i1: nat, k2: nat, i2: nat)
    requires ps >= 1 && k1 >= 1 && k2 >= 1 && k1 != k2
    requires i1 < |Page(q, k1, ps)| && i2 < |Page(q, k2, ps)|
    ensures Position(k1, ps, i1) < |q| && Position(k2, ps, i2) < |q|
    ensures Position(k1, ps, i1) != Position(k2, ps, i2)
    ensures Page(q, k1, ps)[i1] == q[Position(k1, ps, i1)]
    ensures Page(q, k2, ps)[i2] == q[Position(k2, ps, i2)]
  {
    PageItem(q, k1, ps, i1);
    PageItem(q, k2, ps, i2);
    PositionsDistinct(ps, k1, i1, k2, i2);
  }

  /** The flags of a fetched page: there is a previous page exactly when
      records were skipped, and a next page exactly when records remain after
      this one. */
  lemma FlagsOfFetchedPage<T>(q: seq<T>, pageNumber: int32, pageSize: int32)
    requires |q| <= Int32Max && pageSize > 0 && pageNumber >= 1
    requires InInt32((pageNumber as int - 1) * pageSize as int)
    ensures var r := ToPagedResult(q, pageNumber, pageSize);
      var skip := (pageNumber as int - 1) * pageSize as int;
      (r.HasPreviousPage() <==> skip > 0) &&
      (r.HasNextPage() <==> skip + |r.items| < |q|)
  {
    var r := ToPagedResult(q, pageNumber, pageSize);
    var n := pageNumber as int;
    var ps := pageSize as int;
    var tp := r.TotalPages() as int;
    var skip := (n - 1) * ps;
    assert skip + ps == n * ps;
    if n > 1 { MulLe(1, n - 1, ps); }
    if n < tp {
      MulLe(n, tp - 1, ps);
    } else {
      MulLe(tp, n, ps);
    }
  }

  /** Twenty-five records in pages of ten: page 2 is full and has pages on
      both sides; page 3, the last, holds the remaining five. */
  lemma TwentyFiveRecords<T>(q: seq<T>)
    requires |q| == 25
    ensures var p := ToPagedResult(q, 2, 10);
      |p.items| == 10 && p.totalCount == 25 && p.TotalPages() == 3 &&
      p.HasPreviousPage() && p.HasNextPage()
    ensures var p := ToPagedResult(q, 3, 10);
      |p.items| == 5 && p.HasPreviousPage() && !p.HasNextPage()
  {
  }
}

=== FILE: play_ef_repository.dfy ===
/** `EfRepository<T>` of `Play.CommonUtils`: the relational repository that
    answers with bare values and reports every problem by throwing. A query
    returns `Success` with what it read; a command returns `Success` with the
    new table; a thrown exception is `Failure` with its kind, and the table is
    then unchanged (nothing reaches the save). */
module PlayEfRepository {
  import opened Wrappers
  import opened Store

  /** `GetAllAsync()`: every record. */
  function GetAll(s: Store, fault: Fault): (r: Result<Store, Raised>)
    ensures r.Success? <==> fault.Healthy?
    ensures r.Success? ==> r.value == s
    ensures r.Failure? ==> r.error == StoreError(fault.message)
  {
    if fault.Throws? then Failure(StoreError(fault.message)) else Success(s)
  }

  /** `GetAllAsync(filter)`: the matching records, in table order. */
  function GetAllWhere(s: Store, filter: Entity -> bool, fault: Fault): (r: Result<Store, Raised>)
    ensures r.Success? <==> fault.Healthy?
    ensures r.Success? ==> forall e :: e in r.value <==> e in s && filter(e)
    ensures r.Success? ==> r.value == Where(s, filter)
    ensures r.Failure? ==> r.error == StoreError(fault.message)
  {
    if fault.Throws? then Failure(StoreError(fault.message)) else Success(Where(s, filter))
  }

  /** `GetAsync(id)`: `ArgumentException` for the empty id before the table is
      read; otherwise the record with the id, or null. */
  function GetById(s: Store, id: Guid, fault: Fault): (r: Result<Option<Entity>, Raised>)
    ensures r == Failure(Argument) <==> id == EmptyGuid
    ensures r.Success? <==> id != EmptyGuid && fault.Healthy?
    ensures r.Success? ==> (r.value.Some? <==> HasId(s, id))
    ensures r.Success? && r.value.Some? ==> r.value.value in s && r.value.value.id == id
    ensures r.Success? && UniqueIds(s) ==> forall e :: e in s && e.id == id ==> r.value == Some(e)
    ensures id != EmptyGuid && fault.Throws? ==> r == Failure(StoreError(fault.message))
  {
    if id == EmptyGuid then Failure(Argument)
    else if fault.Throws? then Failure(StoreError(fault.message))
    else Success(Lookup(s, id))
  }

  /** `GetAsync(filter)`: the first matching record, or null. */
  function GetFirst(s: Store, filter: Entity -> bool, fault: Fault): (r: Result<Option<Entity>, Raised>)
    ensures r.Success? <==> fault.Healthy?
    ensures r.Success? ==> (r.value.None? <==> forall e :: e in s ==> !filter(e))
    ensures r.Success? && r.value.Some? ==> r.value.value in s && filter(r.value.value)
    ensures r.Success? ==> r.value == FirstOrDefault(s, filter)
    ensures fault.Throws? ==> r == Failure(StoreError(fault.message))
  {
    if fault.Throws? then Failure(StoreError(fault.message)) else Success(FirstOrDefault(s, filter))
  }

  /** The update path shared by `ApplyChangesAsync` and `UpdateAsync`: the
      stored record is looked up through `GetAsync(entity.Id)` (so an empty
      `Id` throws `ArgumentException`), an absent one throws
      `InvalidOperationException`, and otherwise its values are overwritten
      by the argument's and saved. */
  function CopyOnto(s: Store, e: Entity, fault: Fault): (r: Result<Store, Raised>)
    ensures r == Failure(Argument) <==> e.id == EmptyGuid
    ensures r == Failure(InvalidOperation) <==> e.id != EmptyGuid && fault.Healthy? && !HasId(s, e.id)
    ensures r.Success? <==> e.id != EmptyGuid && fault.Healthy? && HasId(s, e.id)
    ensures r.Success? ==> |r.value| == |s|
    ensures r.Success? ==> Lookup(r.value, e.id) == Some(Lookup(s, e.id).value.(fields := e.fields))
    ensures r.Success? ==> ChangedOnly(s, r.value, e.id)
    ensures r.Success? && UniqueIds(s) ==> UniqueIds(r.value)
    ensures e.id != EmptyGuid && fault.Throws? ==> r == Failure(StoreError(fault.message))
  {
    match GetById(s, e.id, fault)
    case Failure(x) => Failure(x)
    case Success(None) => Failure(InvalidOperation)
    case Success(Some(_)) => Success(SetValues(s, e.id, e).store)
  }

  /** `ApplyChangesAsync`: `ArgumentNullException` for null and
      `InvalidOperationException` for an entity without the upsert marker.
      With `IsNew` the record is added and saved (a key already stored makes
      the save fail); without it the update path runs. */
  function ApplyChanges(s: Store, entity: Option<Entity>, fault: Fault): (r: Result<Store, Raised>)
    ensures r == Failure(ArgumentNull) <==> entity.None?
    ensures entity.Some? && entity.value.listEdit.None? ==> r == Failure(InvalidOperation)
    ensures entity.Some? && entity.value.listEdit == Some(true) ==>
      (r.Success? <==> fault.Healthy? && !HasId(s, entity.value.id)) &&
      (r.Success? ==> r.value == s + [entity.value])
    ensures entity.Some? && entity.value.listEdit == Some(false) ==> r == CopyOnto(s, entity.value, fault)
    ensures r.Success? && UniqueIds(s) ==> UniqueIds(r.value)
    ensures entity.Some? && entity.value.listEdit == Some(false) && entity.value.id != EmptyGuid && fault.Throws? ==>
      r == Failure(StoreError(fault.message))
    ensures entity.Some? && entity.value.listEdit == Some(true) && fault.Throws? ==> r == Failure(StoreError(fault.message))
  {
    match entity
    case None => Failure(ArgumentNull)
    case Some(e) =>
      match e.listEdit
      case None => Failure(InvalidOperation)
      case Some(isNew) =>
        if !isNew then CopyOnto(s, e, fault)
        else if fault.Throws? then Failure(StoreError(fault.message))
        else match Insert(s, e)
          case None => Failure(StoreError(DuplicateKeyMessage))
          case Some(s') => Success(s')
  }

  /** `CreateAsync`: `ArgumentNullException` for null, else the record is added
      and saved; a key already stored makes the save fail. */
  function Create(s: Store, entity: Option<Entity>, fault: Fault): (r: Result<Store, Raised>)
    ensures r == Failure(ArgumentNull) <==> entity.None?
    ensures r.Success? <==> entity.Some? && fault.Healthy? && !HasId(s, entity.value.id)
    ensures r.Success? ==> r.value == s + [entity.value]
    ensures r.Success? && UniqueIds(s) ==> UniqueIds(r.value)
    ensures entity.Some? && fault.Throws? ==> r == Failure(StoreError(fault.message))
  {
    match entity
    case None => Failure(ArgumentNull)
    case Some(e) =>
      if fault.Throws? then Failure(StoreError(fault.message))
      else match Insert(s, e)
        case None => Failure(StoreError(DuplicateKeyMessage))
        case Some(s') => Success(s')
  }

  /** `UpdateAsync`: `ArgumentNullException` for null, then the update path. */
  function Update(s: Store, entity: Option<Entity>, fault: Fault): (r: Result<Store, Raised>)
    ensures r == Failure(ArgumentNull) <==> entity.None?
    ensures r == Failure(Argument) <==> entity.Some? && entity.value.id == EmptyGuid
    ensures r == Failure(InvalidOperation) <==>
      entity.Some? && entity.value.id != EmptyGuid && fault.Healthy? && !HasId(s, entity.value.id)
    ensures r.Success? <==> entity.Some? && entity.value.id != EmptyGuid && fault.Healthy? && HasId(s, entity.value.id)
    ensures r.Success? ==> Lookup(r.value, entity.value.id) == Some(Lookup(s, entity.value.id).value.(fields := entity.value.fields))
    ensures r.Success? ==> ChangedOnly(s, r.value, entity.value.id)
    ensures r.Success? && UniqueIds(s) ==> UniqueIds(r.value)
    ensures entity.Some? && entity.value.id != EmptyGuid && fault.Throws? ==> r == Failure(StoreError(fault.message))
  {
    match entity
    case None => Failure(ArgumentNull)
    case Some(e) => CopyOnto(s, e, fault)
  }

  /** `DeleteAsync`: `ArgumentException` for the empty id,
      `InvalidOperationException` when absent, else the record is removed. */
  function Delete(s: Store, id: Guid, fault: Fault): (r: Result<Store, Raised>)
    ensures r == Failure(Argument) <==> id == EmptyGuid
    ensures r == Failure(InvalidOperation) <==> id != EmptyGuid && fault.Healthy? && !HasId(s, id)
    ensures r.Success? <==> id != EmptyGuid && fault.Healthy? && HasId(s, id)
    ensures id != EmptyGuid && fault.Throws? ==> r == Failure(StoreError(fault.message))
    ensures r.Success? ==> |r.value| == |s| - 1 && RemovedOnly(s, r.value, id)
    ensures r.Success? && UniqueIds(s) ==> forall x :: x in r.value <==> x in s && x.id != id
  {
    match GetById(s, id, fault)
    case Failure(x) => Failure(x)
    case Success(None) => Failure(InvalidOperation)
    case Success(Some(_)) => Success(DeleteOne(s, id).store)
  }
}

=== FILE: play_mongo_repository.dfy ===
/** `MongoRepository<T>` of `Play.CommonUtils`: the document repository that
    answers with bare values and reports every problem by throwing. Its
    queries behave as the relational ones of the same library; its writes go
    straight to the collection, one document at a time, by an `Id` filter. */
module PlayMongoRepository {
  import opened Wrappers
  import opened Store
  import PlayEfRepository

  /** `GetAllAsync()`: every document. */
  function GetAll(s: Store, fault: Fault): (r: Result<Store, Raised>)
    ensures r.Success? <==> fault.Healthy?
    ensures r.Success? ==> r.value == s
    ensures r.Failure? ==> r.error == StoreError(fault.message)
  {
    PlayEfRepository.GetAll(s, fault)
  }

  /** `GetAllAsync(filter)`: the matching documents. */
  function GetAllWhere(s: Store, filter: Entity -> bool, fault: Fault): (r: Result<Store, Raised>)
    ensures r.Success? <==> fault.Healthy?
    ensures r.Success? ==> forall e :: e in r.value <==> e in s && filter(e)
    ensures r.Success? ==> r.value == Where(s, filter)
    ensures r.Failure? ==> r.error == StoreError(fault.message)
  {
    PlayEfRepository.GetAllWhere(s, filter, fault)
  }

  /** `GetAsync(id)`: `ArgumentException` for the empty id, else the document or null. */
  function GetById(s: Store, id: Guid, fault: Fault): (r: Result<Option<Entity>, Raised>)
    ensures r == Failure(Argument) <==> id == EmptyGuid
    ensures r.Success? <==> id != EmptyGuid && fault.Healthy?
    ensures r.Success? ==> (r.value.Some? <==> HasId(s, id))
    ensures r.Success? && r.value.Some? ==> r.value.value in s && r.value.value.id == id
    ensures id != EmptyGuid && fault.Throws? ==> r == Failure(StoreError(fault.message))
  {
    PlayEfRepository.GetById(s, id, fault)
  }

  /** `GetAsync(filter)`: the first matching document, or null. */
  function GetFirst(s: Store, filter: Entity -> bool, fault: Fault): (r: Result<Option<Entity>, Raised>)
    ensures r.Success? <==> fault.Healthy?
    ensures r.Success? ==> (r.value.None? <==> forall e :: e in s ==> !filter(e))
    ensures r.Success? && r.value.Some? ==> r.value.value in s && filter(r.value.value)
    ensures r.Success? ==> r.value == FirstOrDefault(s, filter)
    ensures fault.Throws? ==> r == Failure(StoreError(fault.message))
  {
    PlayEfRepository.GetFirst(s, filter, fault)
  }

  /** `ApplyChangesAsync`: `ArgumentNullException` for null and
      `InvalidOperationException` for an entity without the upsert marker.
      With `IsNew` the document is inserted; without it the document with the
      same `Id` is wholly replaced, with no empty-id check, and a replace that
      matches nothing throws `InvalidOperationException`. */
  function ApplyChanges(s: Store, entity: Option<Entity>, fault: Fault): (r: Result<Store, Raised>)
    ensures r == Failure(ArgumentNull) <==> entity.None?
    ensures entity.Some? && entity.value.listEdit.None? ==> r == Failure(InvalidOperation)
    ensures entity.Some? && entity.value.listEdit == Some(true) ==>
      (r.Success? <==> fault.Healthy? && !HasId(s, entity.value.id)) &&
      (r.Success? ==> r.value == s + [entity.value])
    ensures entity.Some? && entity.value.listEdit == Some(false) ==>
      (r.Success? <==> fault.Healthy? && HasId(s, entity.value.id)) &&
      (r == Failure(InvalidOperation) <==> fault.Healthy? && !HasId(s, entity.value.id))
    ensures entity.Some? && entity.value.listEdit == Some(false) && r.Success? ==>
      |r.value| == |s| && Lookup(r.value, entity.value.id) == entity
    ensures entity.Some? && entity.value.listEdit == Some(false) && r.Success? ==>
      ChangedOnly(s, r.value, entity.value.id)
    ensures entity.Some? && entity.value.listEdit == Some(false) && r.Success? && UniqueIds(s) ==>
      forall x :: x in r.value <==> (x in s && x.id != entity.value.id) || x == entity.value
    ensures r.Success? && UniqueIds(s) ==> UniqueIds(r.value)
    ensures entity.Some? && entity.value.listEdit.Some? && fault.Throws? ==> r == Failure(StoreError(fault.message))
  {
    match entity
    case None => Failure(ArgumentNull)
    case Some(e) =>
      match e.listEdit
      case None => Failure(InvalidOperation)
      case Some(isNew) =>
        if fault.Throws? then Failure(StoreError(fault.message))
        else if isNew then
          match Insert(s, e)
          case None => Failure(StoreError(DuplicateKeyMessage))
          case Some(s') => Success(s')
        else
          var w := ReplaceOne(s, e.id, e);
          if w.count == 0 then Failure(InvalidOperation) else Success(w.store)
  }

  /** `CreateAsync`: `ArgumentNullException` for null, else the document is inserted. */
  function Create(s: Store, entity: Option<Entity>, fault: Fault): (r: Result<Store, Raised>)
    ensures r == Failure(ArgumentNull) <==> entity.None?
    ensures r.Success? <==> entity.Some? && fault.Healthy? && !HasId(s, entity.value.id)
    ensures r.Success? ==> r.value == s + [entity.value]
    ensures entity.Some? && fault.Throws? ==> r == Failure(StoreError(fault.message))
  {
    PlayEfRepository.Create(s, entity, fault)
  }

  /** `UpdateAsync`: `ArgumentNullException` for null; the existence check goes
      through `GetAsync(entity.Id)`, so an empty `Id` throws `ArgumentException`
      and an absent one `InvalidOperationException`; otherwise the document is
      wholly replaced by the argument. */
  function Update(s: Store, entity: Option<Entity>, fault: Fault): (r: Result<Store, Raised>)
    ensures r == Failure(ArgumentNull) <==> entity.None?
    ensures r == Failure(Argument) <==> entity.Some? && entity.value.id == EmptyGuid
    ensures r == Failure(InvalidOperation) <==>
      entity.Some? && entity.value.id != EmptyGuid && fault.Healthy? && !HasId(s, entity.value.id)
    ensures r.Success? <==> entity.Some? && entity.value.id != EmptyGuid && fault.Healthy? && HasId(s, entity.value.id)
    ensures r.Success? ==> |r.value| == |s| && Lookup(r.value, entity.value.id) == entity
    ensures r.Success? ==> ChangedOnly(s, r.value, entity.value.id)
    ensures r.Success? && UniqueIds(s) ==>
      UniqueIds(r.value) && forall x :: x in r.value <==> (x in s && x.id != entity.value.id) || x == entity.value
    ensures entity.Some? && entity.value.id != EmptyGuid && fault.Throws? ==> r == Failure(StoreError(fault.message))
  {
    match entity
    case None => Failure(ArgumentNull)
    case Some(e) =>
      match GetById(s, e.id, fault)
      case Failure(x) => Failure(x)
      case Success(None) => Failure(InvalidOperation)
      case Success(Some(_)) => Success(ReplaceOne(s, e.id, e).store)
  }

  /** `DeleteAsync`: `ArgumentException` for the empty id,
      `InvalidOperationException` when absent, else the document is removed. */
  function Delete(s: Store, id: Guid, fault: Fault): (r: Result<Store, Raised>)
    ensures r == Failure(Argument) <==> id == EmptyGuid
    ensures r == Failure(InvalidOperation) <==> id != EmptyGuid && fault.Healthy? && !HasId(s, id)
    ensures r.Success? <==> id != EmptyGuid && fault.Healthy? && HasId(s, id)
    ensures id != EmptyGuid && fault.Throws? ==> r == Failure(StoreError(fault.message))
    ensures r.Success? ==> |r.value| == |s| - 1 && RemovedOnly(s, r.value, id)
    ensures r.Success? && UniqueIds(s) ==> forall x :: x in r.value <==> x in s && x.id != id
  {
    PlayEfRepository.Delete(s, id, fault)
  }
}

=== FILE: repository.dfy ===
/** `Repository<T>` of the `solidcode.work.infra` tree (EFCore/Repositories):
    a second relational repository that answers with `TResult` envelopes but
    keeps almost no guards. Lookups by id are key lookups with no empty-id
    check, lists are always 200, creates answer 200 rather than 201, and
    updates attach the argument as modified without any null, id or
    existence check, so the store itself decides: a row that is not there
    makes the save fail with a concurrency error, which becomes a 500. */
module Repository {
  import opened Wrappers
  import opened Store
  import opened Envelope
  import EfRepository

  function IdNotFoundMessage(id: Guid): string
  {
    "Entity with id " + GuidText(id) + " not found."
  }

  /** `GetAsync(filter)`: 200 with the first match, else 404; `include` is ignored. */
  function GetFirst(s: Store, filter: Entity -> bool, fault: Fault): (r: TResultOf<Entity>)
    ensures WellFormed(r.Base())
    ensures r.statusCode == 500 <==> fault.Throws?
    ensures r.statusCode == 404 <==> fault.Healthy? && forall e :: e in s ==> !filter(e)
    ensures r.statusCode == 200 <==> fault.Healthy? && exists e :: e in s && filter(e)
    ensures r.isSuccess ==> r.data == FirstOrDefault(s, filter) && r.message.None?
    ensures fault.Throws? ==> Is(r.Base(), ErrorOutcome, Some(fault.message))
  {
    if fault.Throws? then ErrorOf(fault.message)
    else match FirstOrDefault(s, filter)
      case None => NotFoundOf("No matching entity found.")
      case Some(e) => OkOf(e)
  }

  /** `GetAsync(id)`: a key lookup with no empty-id guard. A miss, the empty id
      included, is 404; a hit is 200. */
  function GetById(s: Store, id: Guid, fault: Fault): (r: TResultOf<Entity>)
    ensures WellFormed(r.Base())
    ensures r.statusCode != 400
    ensures r.statusCode == 500 <==> fault.Throws?
    ensures r.statusCode == 404 <==> fault.Healthy? && !HasId(s, id)
    ensures r.statusCode == 404 ==> r.message == Some(IdNotFoundMessage(id))
    ensures r.statusCode == 200 <==> fault.Healthy? && HasId(s, id)
    ensures r.isSuccess ==> r.data.Some? && r.data.value in s && r.data.value.id == id
    ensures fault.Throws? ==> Is(r.Base(), ErrorOutcome, Some(fault.message))
  {
    if fault.Throws? then ErrorOf(fault.message)
    else match Lookup(s, id)
      case None => NotFoundOf(IdNotFoundMessage(id))
      case Some(e) => OkOf(e)
  }

  /** `GetAllAsync()`: 200 with every record, even for an empty table. */
  function GetAll(s: Store, fault: Fault): (r: TResultOf<Store>)
    ensures WellFormed(r.Base())
    ensures r.statusCode != 204
    ensures r.isSuccess <==> fault.Healthy?
    ensures r.isSuccess ==> Is(r.Base(), OkOutcome, None) && r.data == Some(s)
    ensures fault.Throws? ==> Is(r.Base(), ErrorOutcome, Some(fault.message))
  {
    if fault.Throws? then ErrorOf(fault.message) else OkOf(s)
  }

  /** `GetAllAsync(predicate)` (here `filter`): 200 with the matching records, possibly none. */
  function GetAllWhere(s: Store, filter: Entity -> bool, fault: Fault): (r: TResultOf<Store>)
    ensures WellFormed(r.Base())
    ensures r.statusCode != 204
    ensures r.isSuccess <==> fault.Healthy?
    ensures r.isSuccess ==> r.statusCode == 200 && r.data.Some?
    ensures r.isSuccess ==> forall e :: e in r.data.value <==> e in s && filter(e)
    ensures r.isSuccess ==> r.data == Some(Where(s, filter))
    ensures fault.Throws? ==> Is(r.Base(), ErrorOutcome, Some(fault.message))
  {
    if fault.Throws? then ErrorOf(fault.message) else OkOf(Where(s, filter))
  }

  /** `CreateAsync`: adds and saves, answering 200 (not 201). A null argument
      makes the ORM throw, which the catch turns into 500. */
  function Create(s: Store, entity: Option<Entity>, fault: Fault): (r: Step<TResult>)
    ensures WellFormed(r.result)
    ensures r.result.statusCode != 201 && r.result.statusCode != 400
    ensures entity.None? ==> Is(r.result, ErrorOutcome, Some(NullArgumentMessage))
    ensures r.result.statusCode == 200 <==> entity.Some? && fault.Healthy? && !HasId(s, entity.value.id)
    ensures r.result.statusCode == 200 ==> r.store == s + [entity.value]
    ensures r.result.statusCode != 200 ==> r.store == s
    ensures UniqueIds(s) ==> UniqueIds(r.store)
    ensures entity.Some? && fault.Throws? ==> Is(r.result, ErrorOutcome, Some(fault.message))
  {
    match entity
    case None => Step(s, Error(NullArgumentMessage))
    case Some(e) =>
      if fault.Throws? then Step(s, Error(fault.message))
      else match Insert(s, e)
        case None => Step(s, Error(DuplicateKeyMessage))
        case Some(s') => Step(s', Ok())
  }

  /** `CreateAndReturnAsync`: as `Create`, echoing the argument with 200. */
  function CreateAndReturn(s: Store, entity: Option<Entity>, fault: Fault): (r: Step<TResultOf<Entity>>)
    ensures r.result.Base() == Create(s, entity, fault).result
    ensures r.store == Create(s, entity, fault).store
    ensures r.result.isSuccess ==> r.result.data == entity
  {
    match entity
    case None => Step(s, ErrorOf(NullArgumentMessage))
    case Some(e) =>
      if fault.Throws? then Step(s, ErrorOf(fault.message))
      else match Insert(s, e)
        case None => Step(s, ErrorOf(DuplicateKeyMessage))
        case Some(s') => Step(s', OkOf(e))
  }

  /** `UpdateAsync`: no null, id or existence check. The argument wholly
      replaces the stored row with its id and the answer is 200; when there is
      no such row the save fails and the answer is 500. */
  function Update(s: Store, entity: Option<Entity>, fault: Fault): (r: Step<TResult>)
    ensures WellFormed(r.result)
    ensures r.result.statusCode == 200 || r.result.statusCode == 500
    ensures r.result.statusCode == 200 <==> entity.Some? && fault.Healthy? && HasId(s, entity.value.id)
    ensures r.result.statusCode == 200 ==> Lookup(r.store, entity.value.id) == entity && |r.store| == |s|
    ensures r.result.statusCode == 200 ==> ChangedOnly(s, r.store, entity.value.id)
    ensures r.result.statusCode == 500 ==> r.store == s
    ensures UniqueIds(s) ==> UniqueIds(r.store)
    ensures entity.Some? && fault.Throws? ==> Is(r.result, ErrorOutcome, Some(fault.message))
  {
    match entity
    case None => Step(s, Error(NullArgumentMessage))
    case Some(e) =>
      if fault.Throws? then Step(s, Error(fault.message))
      else
        var w := ReplaceOne(s, e.id, e);
        if w.count == 0 then Step(s, Error(ConcurrencyMessage))
        else Step(w.store, Ok())
  }

  /** `UpdateAndReturnAsync`: as `Update`, echoing the argument with 200. */
  function UpdateAndReturn(s: Store, entity: Option<Entity>, fault: Fault): (r: Step<TResultOf<Entity>>)
    ensures r.result.Base() == Update(s, entity, fault).result
    ensures r.store == Update(s, entity, fault).store
    ensures r.result.isSuccess ==> r.result.data == entity
  {
    match entity
    case None => Step(s, ErrorOf(NullArgumentMessage))
    case Some(e) =>
      if fault.Throws? then Step(s, ErrorOf(fault.message))
      else
        var w := ReplaceOne(s, e.id, e);
        if w.count == 0 then Step(s, ErrorOf(ConcurrencyMessage))
        else Step(w.store, OkOf(e))
  }

  /** `DeleteAsync`: the same guards, messages and effect as the other
      relational repository's delete. */
  function Delete(s: Store, id: Guid, fault: Fault): (r: Step<TResult>)
    ensures WellFormed(r.result)
    ensures r.result.statusCode == 400 <==> id == EmptyGuid
    ensures r.result.statusCode == 500 <==> id != EmptyGuid && fault.Throws?
    ensures r.result.statusCode == 500 ==> r.result.message == Some(fault.message)
    ensures r.result.statusCode == 404 <==> id != EmptyGuid && fault.Healthy? && !HasId(s, id)
    ensures r.result.statusCode == 200 <==> id != EmptyGuid && fault.Healthy? && HasId(s, id)
    ensures r.result.statusCode != 200 ==> r.store == s
    ensures r.result.statusCode == 200 ==> RemovedOnly(s, r.store, id)
    ensures r.result.statusCode == 200 && UniqueIds(s) ==> forall x :: x in r.store <==> x in s && x.id != id
  {
    EfRepository.Delete(s, id, fault)
  }
}

=== FILE: store.dfy ===
/** The abstract store both backends sit on, and the entity contract.

    A table (relational backend) or a collection (document backend) is an
    ordered sequence of records; "first match" is the first record in that
    order satisfying a predicate. Ids are meant to be unique (`UniqueIds`),
    and every store primitive below keeps them unique.

    A store failure is an explicit input, `Fault`: when it is `Throws`, the
    first store call an operation makes raises an exception with that message
    and nothing is persisted. */
module Store {
  import opened Wrappers

  // ------------------------------------------------------------------
  // Guid
  // ------------------------------------------------------------------

  /** A 128-bit identifier. */
  newtype Guid = x: int | 0 <= x < 0x1_0000_0000_0000_0000_0000_0000_0000_0000

  /** `Guid.Empty`, the all-zero identifier that is never a valid lookup key. */
  const EmptyGuid: Guid := 0

  function HexDigit(d: int): (c: char)
    requires 0 <= d < 16
    ensures HexValueOf(c) == d
  {
    "0123456789abcdef"[d]
  }

  /** The value of a lower-case hexadecimal digit (0 for any other character). */
  function HexValueOf(c: char): int
  {
    if '0' <= c <= '9' then c as int - '0' as int
    else if 'a' <= c <= 'f' then c as int - 'a' as int + 10
    else 0
  }

  function Pow16(n: nat): (p: nat)
    ensures p >= 1
  {
    if n == 0 then 1 else 16 * Pow16(n - 1)
  }

  /** The `n` low hexadecimal digits of `x`, most significant first. */
  function HexDigits(x: nat, n: nat): (r: string)
    ensures |r| == n
  {
    if n == 0 then "" else HexDigits(x / 16, n - 1) + [HexDigit(x % 16)]
  }

  /** The number a string of hexadecimal digits spells, most significant first. */
  function HexValue(s: string): int
  {
    if |s| == 0 then 0 else 16 * HexValue(s[..|s| - 1]) + HexValueOf(s[|s| - 1])
  }

  /** Reading back `HexDigits` recovers the low `n` digits of the number. */
  lemma {:induction false} HexRoundTrip(x: nat, n: nat)
    ensures HexValue(HexDigits(x, n)) == x % Pow16(n)
  {
    if n > 0 {
      var s := HexDigits(x, n);
      assert s[..|s| - 1] == HexDigits(x / 16, n - 1);
      HexRoundTrip(x / 16, n - 1);
      DivModPow16(x, n);
    }
  }

  /** x mod 16^n == 16 * ((x / 16) mod 16^(n-1)) + x mod 16. */
  lemma DivModPow16(x: nat, n: nat)
    requires n > 0
    ensures x % Pow16(n) == 16 * ((x / 16) % Pow16(n - 1)) + x % 16
  {
    var p := Pow16(n - 1);
    var q := x / 16;
    var d := x % 16;
    assert x == 16 * q + d;
    var a := q / p;
    var b := q % p;
    assert q == a * p + b;
    assert x == (16 * p) * a + (16 * b + d);
    assert 0 <= 16 * b + d < 16 * p;
    ModUnique(x, 16 * p, a, 16 * b + d);
  }

  /** The quotient and remainder of `x` by `m` are the only ones in range. */
  lemma ModUnique(x: int, m: int, a: int, b: int)
    requires m > 0 && 0 <= b < m && x == m * a + b
    ensures x % m == b
  {
    var q := x / m;
    var r := x % m;
    assert m * (q - a) == b - r by {
      assert m * q + r == m * a + b;
    }
    if q > a {
      MulAtLeast(m, q - a);
    } else if q < a {
      MulAtLeast(m, a - q);
    }
  }

  lemma {:induction false} MulAtLeast(m: int, k: int)
    requires m > 0 && k >= 1
    ensures m * k >= m
  {
    if k > 1 {
      MulAtLeast(m, k - 1);
      assert m * k == m * (k - 1) + m;
    }
  }

  /** 32 digits in 8-4-4-4-12 groups separated by dashes. */
  function Dashed(d: string): (t: string)
    requires |d| == 32
    ensures |t| == 36
    ensures t[8] == '-' && t[13] == '-' && t[18] == '-' && t[23] == '-'
  {
    d[..8] + "-" + d[8..12] + "-" + d[12..16] + "-" + d[16..20] + "-" + d[20..]
  }

  /** The digits of a dashed text, without the dashes. */
  function Undashed(t: string): string
    requires |t| == 36
  {
    t[..8] + t[9..13] + t[14..18] + t[19..23] + t[24..]
  }

  lemma DashedRoundTrip(d: string)
    requires |d| == 32
    ensures Undashed(Dashed(d)) == d
  {
    var t := Dashed(d);
    assert t[..8] == d[..8];
    assert t[9..13] == d[8..12];
    assert t[14..18] == d[12..16];
    assert t[19..23] == d[16..20];
    assert t[24..] == d[20..];
    assert d == d[..8] + d[8..12] + d[12..16] + d[16..20] + d[20..];
  }

  /** `Guid.ToString()`: 32 lower-case hexadecimal digits in 8-4-4-4-12 groups. */
  function GuidText(g: Guid): (r: string)
    ensures |r| == 36
    ensures r[8] == '-' && r[13] == '-' && r[18] == '-' && r[23] == '-'
  {
    Dashed(HexDigits(g as int, 32))
  }

  /** Distinct ids print differently: the text of an id identifies it. */
  lemma GuidTextInjective(a: Guid, b: Guid)
    requires GuidText(a) == GuidText(b)
    ensures a == b
  {
    var da := HexDigits(a as int, 32);
    var db := HexDigits(b as int, 32);
    DashedRoundTrip(da);
    DashedRoundTrip(db);
    assert da == db by {
      assert Dashed(da) == Dashed(db);
    }
    HexRoundTrip(a as int, 32);
    HexRoundTrip(b as int, 32);
    Pow16Of32();
    ModUnique(a as int, Pow16(32), 0, a as int);
    ModUnique(b as int, Pow16(32), 0, b as int);
  }

  lemma {:induction false} Pow16Add(m: nat, n: nat)
    ensures Pow16(m + n) == Pow16(m) * Pow16(n)
  {
    if m > 0 {
      Pow16Add(m - 1, n);
    }
  }

  /** 16^32 == 2^128, the number of distinct Guids. */
  lemma Pow16Of32()
    ensures Pow16(32) == 0x1_0000_0000_0000_0000_0000_0000_0000_0000
  {
    assert Pow16(2) == 0x100;
    Pow16Add(2, 2);
    Pow16Add(4, 4);
    Pow16Add(8, 8);
    Pow16Add(16, 16);
  }

  // ------------------------------------------------------------------
  // Entities and stores
  // ------------------------------------------------------------------

  /** The persisted scalar values of an entity other than its id, by column name. */
  type Fields = map<string, string>

  /** An entity: its `Id`, its other values, and the upsert marker.
      `listEdit` is `None` when the entity type does not implement the
      list-edit interface, and `Some(isNew)` when it does. The marker is
      transient: copying values from one entity to another leaves it alone. */
  datatype Entity = Entity(id: Guid, fields: Fields, listEdit: Option<bool>)

  /** One table or collection. */
  type Store = seq<Entity>

  /** A store failure oracle. `kind` only matters where the source catches a
      single exception type (the relational `SaveChangesAsync`). */
  datatype FaultKind = Concurrency | General
  datatype Fault = Healthy | Throws(kind: FaultKind, message: string)

  /** The exception kinds the exception-throwing repositories raise:
      `ArgumentNullException`, `ArgumentException`, `InvalidOperationException`,
      and whatever the store itself throws, with its message. */
  datatype Raised = ArgumentNull | Argument | InvalidOperation | StoreError(message: string)

  /** The new store and the outcome of a command. */
  datatype Step<+R> = Step(store: Store, result: R)

  /** Message of the store's own failure when an insert reuses a stored id. */
  const DuplicateKeyMessage: string := "duplicate key"

  /** Message of the relational store's failure when an update matches no row. */
  const ConcurrencyMessage: string := "expected to affect 1 row(s), but actually affected 0 row(s)"

  /** Message of the `ArgumentNullException` a null entity raises inside the ORM. */
  const NullArgumentMessage: string := "Value cannot be null. (Parameter 'entity')"

  predicate UniqueIds(s: Store)
  {
    forall i, j :: 0 <= i < j < |s| ==> s[i].id != s[j].id
  }

  predicate HasId(s: Store, id: Guid)
  {
    exists i :: 0 <= i < |s| && s[i].id == id
  }

  /** Index of the first record satisfying `p`. */
  function FirstIndex(s: Store, p: Entity -> bool): (k: Option<nat>)
    ensures k.Some? ==> k.value < |s| && p(s[k.value]) && forall j :: 0 <= j < k.value ==> !p(s[j])
    ensures k.None? ==> forall j :: 0 <= j < |s| ==> !p(s[j])
  {
    if |s| == 0 then None
    else if p(s[0]) then Some(0)
    else match FirstIndex(s[1..], p)
      case None => None
      case Some(k) => Some(k + 1)
  }

  /** `FirstOrDefault(p)`: the first record satisfying `p`, or null. */
  function FirstOrDefault(s: Store, p: Entity -> bool): (r: Option<Entity>)
    ensures r.Some? ==> r.value in s && p(r.value)
    ensures r.Some? ==>
      exists k :: 0 <= k < |s| && s[k] == r.value && forall j :: 0 <= j < k ==> !p(s[j])
    ensures r.None? <==> forall e :: e in s ==> !p(e)
  {
    match FirstIndex(s, p)
    case None => None
    case Some(k) => Some(s[k])
  }

  /** Index of the record with id `id`. */
  function IndexOf(s: Store, id: Guid): (k: Option<nat>)
    ensures k.Some? <==> HasId(s, id)
    ensures k.Some? ==> k.value < |s| && s[k.value].id == id
    ensures k.Some? && UniqueIds(s) ==> forall j :: 0 <= j < |s| && j != k.value ==> s[j].id != id
  {
    FirstIndex(s, (e: Entity) => e.id == id)
  }

  /** The record with id `id` (a key lookup or an `Id == id` filter), or null. */
  function Lookup(s: Store, id: Guid): (r: Option<Entity>)
    ensures r.Some? <==> HasId(s, id)
    ensures r.Some? ==> r.value in s && r.value.id == id
    ensures UniqueIds(s) ==> forall e :: e in s && e.id == id ==> r == Some(e)
  {
    match IndexOf(s, id)
    case None => None
    case Some(k) => Some(s[k])
  }

  /** `Where(p)`: the records satisfying `p`, in store order. Each matching
      record occurs as often as in the store, and no other record occurs. */
  function Where(s: Store, p: Entity -> bool): (r: Store)
    ensures |r| <= |s|
    ensures forall e :: e in r <==> e in s && p(e)
    ensures forall e :: multiset(r)[e] == if p(e) then multiset(s)[e] else 0
    ensures (forall e :: e in s ==> p(e)) ==> r == s
  {
    if |s| == 0 then []
    else
      assert s == [s[0]] + s[1..];
      if p(s[0]) then [s[0]] + Where(s[1..], p)
      else Where(s[1..], p)
  }

  /** Filtering keeps the store's order: the matches of a concatenation are
      the matches of the first part followed by those of the second. */
  lemma {:induction false} WhereAppend(a: Store, b: Store, p: Entity -> bool)
    ensures Where(a + b, p) == Where(a, p) + Where(b, p)
  {
    if |a| == 0 {
      assert a + b == b;
    } else {
      assert (a + b)[1..] == a[1..] + b;
      WhereAppend(a[1..], b, p);
    }
  }

  /** The first match is the head of the matches: `FirstOrDefault` agrees
      with `Where` on every store. */
  lemma {:induction false} FirstIsHeadOfWhere(s: Store, p: Entity -> bool)
    ensures FirstOrDefault(s, p) == if Where(s, p) == [] then None else Some(Where(s, p)[0])
  {
    if |s| > 0 && !p(s[0]) {
      FirstIsHeadOfWhere(s[1..], p);
      assert FirstOrDefault(s, p) == FirstOrDefault(s[1..], p);
    }
  }

  /** The first match in a concatenation comes from the first part when it
      has one, and from the second part otherwise. */
  lemma FirstOrDefaultAppend(a: Store, b: Store, p: Entity -> bool)
    ensures FirstOrDefault(a + b, p) ==
      if FirstOrDefault(a, p).Some? then FirstOrDefault(a, p) else FirstOrDefault(b, p)
  {
    FirstIsHeadOfWhere(a + b, p);
    FirstIsHeadOfWhere(a, p);
    FirstIsHeadOfWhere(b, p);
    WhereAppend(a, b, p);
  }

  /** An insert: appends, or fails when the id is already stored. */
  function Insert(s: Store, e: Entity): (r: Option<Store>)
    ensures r.Some? <==> !HasId(s, e.id)
    ensures r.Some? ==> r.value == s + [e] && Lookup(r.value, e.id) == Some(e)
    ensures r.Some? && UniqueIds(s) ==> UniqueIds(r.value)
  {
    if HasId(s, e.id) then None
    else
      LookupAppend(s, e);
      Some(s + [e])
  }

  lemma LookupAppend(s: Store, e: Entity)
    requires !HasId(s, e.id)
    ensures Lookup(s + [e], e.id) == Some(e)
  {
    assert (s + [e])[|s|] == e;
    assert HasId(s + [e], e.id);
  }

  /** `t` differs from `s` at most in the records with id `id`: same length,
      and every record with another id is kept at its position. */
  predicate ChangedOnly(s: Store, t: Store, id: Guid)
  {
    |t| == |s| && forall j :: 0 <= j < |s| && s[j].id != id ==> t[j] == s[j]
  }

  /** `t` is `s` without its first record with id `id`: the records before
      and after it stay, in the same order. */
  predicate RemovedOnly(s: Store, t: Store, id: Guid)
  {
    exists k :: 0 <= k < |s| && s[k].id == id && (forall j :: 0 <= j < k ==> s[j].id != id) &&
      t == s[..k] + s[k + 1..]
  }

  /** The number of records a command touched, and the store after it. */
  datatype WriteResult = WriteResult(store: Store, count: nat)

  /** A whole-record replace of the record with id `id` by `e` (`ReplaceOne`
      with an `Id` filter, or marking a detached entity as modified). */
  function ReplaceOne(s: Store, id: Guid, e: Entity): (r: WriteResult)
    requires e.id == id
    ensures r.count == 0 <==> !HasId(s, id)
    ensures r.count <= 1
    ensures r.count == 0 ==> r.store == s
    ensures r.count == 1 ==> |r.store| == |s| && Lookup(r.store, id) == Some(e)
    ensures r.count == 1 ==> ChangedOnly(s, r.store, id)
    ensures r.count == 1 && UniqueIds(s) ==> UniqueIds(r.store)
    ensures r.count == 1 && UniqueIds(s) ==>
      forall x :: x in r.store <==> (x in s && x.id != id) || x == e
  {
    match IndexOf(s, id)
    case None => WriteResult(s, 0)
    case Some(k) =>
      LookupAt(s[k := e], k);
      ReplaceAtFacts(s, k, e);
      WriteResult(s[k := e], 1)
  }

  /** Copying the values of `src` onto the record with id `id`, keeping that
      record's key and marker (`Entry(existing).CurrentValues.SetValues(src)`). */
  function SetValues(s: Store, id: Guid, src: Entity): (r: WriteResult)
    ensures r.count == 0 <==> !HasId(s, id)
    ensures r.count <= 1
    ensures r.count == 0 ==> r.store == s
    ensures r.count == 1 ==> |r.store| == |s|
    ensures r.count == 1 ==> var prior := Lookup(s, id).value;
      Lookup(r.store, id) == Some(prior.(fields := src.fields))
    ensures r.count == 1 ==> ChangedOnly(s, r.store, id)
    ensures r.count == 1 && UniqueIds(s) ==> UniqueIds(r.store)
    ensures r.count == 1 && UniqueIds(s) ==> var updated := Lookup(s, id).value.(fields := src.fields);
      forall x :: x in r.store <==> (x in s && x.id != id) || x == updated
  {
    match IndexOf(s, id)
    case None => WriteResult(s, 0)
    case Some(k) =>
      var s' := s[k := s[k].(fields := src.fields)];
      LookupAt(s', k);
      ReplaceAtFacts(s, k, s[k].(fields := src.fields));
      WriteResult(s', 1)
  }

  /** The lookup of the id stored at index `k` finds index `k` when no earlier
      record has that id. */
  lemma LookupAt(s: Store, k: nat)
    requires k < |s|
    requires forall j :: 0 <= j < k ==> s[j].id != s[k].id
    ensures Lookup(s, s[k].id) == Some(s[k])
  {
    var i := IndexOf(s, s[k].id);
    assert i.Some?;
    assert i.value <= k;
  }

  /** A delete of the record with id `id` (`Remove` + save, or `DeleteOne`). */
  function DeleteOne(s: Store, id: Guid): (r: WriteResult)
    ensures r.count == 0 <==> !HasId(s, id)
    ensures r.count <= 1
    ensures r.count == 0 ==> r.store == s
    ensures r.count == 1 ==> |r.store| == |s| - 1 && forall x :: x in r.store ==> x in s
    ensures r.count == 1 ==> RemovedOnly(s, r.store, id)
    ensures r.count == 1 && UniqueIds(s) ==> UniqueIds(r.store) && !HasId(r.store, id)
    ensures r.count == 1 && UniqueIds(s) ==>
      forall x :: x in r.store <==> x in s && x.id != id
  {
    match IndexOf(s, id)
    case None => WriteResult(s, 0)
    case Some(k) =>
      var s' := s[..k] + s[k + 1..];
      RemoveAtFacts(s, k);
      WriteResult(s', 1)
  }

  lemma RemoveAtFacts(s: Store, k: nat)
    requires k < |s|
    ensures forall x :: x in s[..k] + s[k + 1..] ==> x in s
    ensures UniqueIds(s) ==> UniqueIds(s[..k] + s[k + 1..])
    ensures UniqueIds(s) ==> forall x :: x in s[..k] + s[k + 1..] <==> x in s && x.id != s[k].id
  {
    var s' := s[..k] + s[k + 1..];
    assert forall j :: 0 <= j < |s'| ==> s'[j] == if j < k then s[j] else s[j + 1];
    if UniqueIds(s) {
      forall x | x in s && x.id != s[k].id
        ensures x in s'
      {
        var j :| 0 <= j < |s| && s[j] == x;
        assert j != k;
        if j < k { assert s'[j] == x; } else { assert s'[j - 1] == x; }
      }
    }
  }

  lemma ReplaceAtFacts(s: Store, k: nat, e: Entity)
    requires k < |s| && e.id == s[k].id
    ensures UniqueIds(s) ==> UniqueIds(s[k := e])
    ensures UniqueIds(s) ==> forall x :: x in s[k := e] <==> (x in s && x.id != s[k].id) || x == e
  {
    var s' := s[k := e];
    if UniqueIds(s) {
      forall x | x in s'
        ensures (x in s && x.id != s[k].id) || x == e
      {
        var j :| 0 <= j < |s'| && s'[j] == x;
        if j != k { assert s[j] == x; }
      }
      forall x | x in s && x.id != s[k].id
        ensures x in s'
      {
        var j :| 0 <= j < |s| && s[j] == x;
        assert j != k && s'[j] == x;
      }
      assert s'[k] == e;
    }
  }
}

=== FILE: variants.dfy ===
/** Properties that relate several operations, or the same operation across
    the repository variants: round trips (create then read, create then
    delete), idempotence of a whole-record replace, and the places where the
    variants answer the same request differently. */
module Variants {
  import opened Wrappers
  import opened Store
  import opened Envelope
  import EfRepository
  import Repository
  import MongoRepository
  import PlayEfRepository
  import PlayMongoRepository
  import LegacyEfRepository
  import ApiController

  // ------------------------------------------------------------------
  // Store facts the round trips rest on
  // ------------------------------------------------------------------

  /** In a store with unique ids, an id has exactly one index. */
  lemma IndexOfUnique(s: Store, id: Guid, k: nat)
    requires UniqueIds(s) && k < |s| && s[k].id == id
    ensures IndexOf(s, id) == Some(k)
  {
    var i := IndexOf(s, id);
    assert i.Some?;
  }

  /** Deleting the record just appended gives back the store it was appended to. */
  lemma DeleteAppended(s: Store, e: Entity)
    requires UniqueIds(s) && !HasId(s, e.id)
    ensures DeleteOne(s + [e], e.id) == WriteResult(s, 1)
  {
    var t := s + [e];
    assert t[|s|] == e;
    assert UniqueIds(t);
    IndexOfUnique(t, e.id, |s|);
    assert t[..|s|] + t[|s| + 1..] == s;
  }

  /** Replacing a record by itself changes nothing. */
  lemma ReplaceSelf(s: Store, e: Entity)
    requires UniqueIds(s) && e in s
    ensures ReplaceOne(s, e.id, e) == WriteResult(s, 1)
  {
    var k :| 0 <= k < |s| && s[k] == e;
    IndexOfUnique(s, e.id, k);
    assert s[k := e] == s;
  }

  // ------------------------------------------------------------------
  // Round trips
  // ------------------------------------------------------------------

  /** Relational repository: a record that was created is then found by its id. */
  lemma {:induction false} CreateThenGet(s: Store, e: Entity)
    requires e.id != EmptyGuid
    requires EfRepository.Create(s, Some(e), Healthy).result.statusCode == 201
    ensures var s' := EfRepository.Create(s, Some(e), Healthy).store;
      var g := EfRepository.GetById(s', e.id, Healthy);
      g.statusCode == 200 && g.data == Some(e)
  {
    var s' := EfRepository.Create(s, Some(e), Healthy).store;
    assert s' == s + [e];
    assert Insert(s, e) == Some(s');
  }

  /** Relational and document repositories: creating a record and deleting it
      again restores the store exactly. */
  lemma {:induction false} CreateThenDelete(s: Store, e: Entity)
    requires UniqueIds(s) && e.id != EmptyGuid && !HasId(s, e.id)
    ensures var s1 := EfRepository.Create(s, Some(e), Healthy);
      var s2 := EfRepository.Delete(s1.store, e.id, Healthy);
      s1.result.statusCode == 201 && s2.result.statusCode == 200 && s2.store == s
    ensures var s1 := MongoRepository.Create(s, Some(e), Healthy);
      var s2 := MongoRepository.Delete(s1.store, e.id, Healthy);
      s1.result.statusCode == 201 && s2.result.statusCode == 200 && s2.store == s
  {
    DeleteAppended(s, e);
  }

  /** The exception-throwing repository: create then delete restores the store. */
  lemma {:induction false} PlayCreateThenDelete(s: Store, e: Entity)
    requires UniqueIds(s) && e.id != EmptyGuid && !HasId(s, e.id)
    ensures PlayEfRepository.Create(s, Some(e), Healthy) == Success(s + [e])
    ensures PlayEfRepository.Delete(s + [e], e.id, Healthy) == Success(s)
  {
    DeleteAppended(s, e);
    assert (s + [e])[|s|] == e;
  }

  /** After a successful delete the id is gone: a lookup is 404 and a second
      delete is 404 with the store unchanged. */
  lemma DeleteThenGet(s: Store, id: Guid)
    requires UniqueIds(s)
    requires EfRepository.Delete(s, id, Healthy).result.statusCode == 200
    ensures var s' := EfRepository.Delete(s, id, Healthy).store;
      EfRepository.GetById(s', id, Healthy).statusCode == 404 &&
      EfRepository.Delete(s', id, Healthy).result.statusCode == 404 &&
      EfRepository.Delete(s', id, Healthy).store == s'
  {
  }

  /** The document repository's update replaces the whole record, so repeating
      it changes nothing more. */
  lemma {:induction false} MongoUpdateIdempotent(s: Store, e: Entity)
    requires UniqueIds(s)
    requires MongoRepository.Update(s, Some(e), Healthy).result.statusCode == 200
    ensures var s' := MongoRepository.Update(s, Some(e), Healthy).store;
      MongoRepository.Update(s', Some(e), Healthy) == Step(s', MongoRepository.Update(s, Some(e), Healthy).result)
  {
    var s' := MongoRepository.Update(s, Some(e), Healthy).store;
    assert Lookup(s', e.id) == Some(e);
    ReplaceSelf(s', e);
  }

  // ------------------------------------------------------------------
  // Where the variants differ
  // ------------------------------------------------------------------

  /** `UpdateAsync` of the relational repository answers 200 but stores
      nothing for an untracked argument, so a later read still sees the old
      record; the document
      repository's answer 200 means a later read sees the argument. */
  lemma UpdateThenGet(s: Store, e: Entity)
    requires UniqueIds(s) && e.id != EmptyGuid && HasId(s, e.id)
    ensures EfRepository.Update(s, Some(e), Healthy).result.statusCode == 200
    ensures var s' := EfRepository.Update(s, Some(e), Healthy).store;
      EfRepository.GetById(s', e.id, Healthy).data == Lookup(s, e.id)
    ensures MongoRepository.Update(s, Some(e), Healthy).result.statusCode == 200
    ensures var s' := MongoRepository.Update(s, Some(e), Healthy).store;
      MongoRepository.GetById(s', e.id, Healthy).data == Some(e)
  {
    var s' := MongoRepository.Update(s, Some(e), Healthy).store;
    assert Lookup(s', e.id) == Some(e);
  }

  /** Reading an empty table: 204 from the guarded repositories, 200 with an
      empty list from the unguarded one. */
  lemma EmptyTable()
    ensures EfRepository.GetAll([], Healthy).statusCode == 204
    ensures MongoRepository.GetAll([], Healthy).statusCode == 204
    ensures Repository.GetAll([], Healthy).statusCode == 200
    ensures Repository.GetAll([], Healthy).data == Some([])
  {
  }

  /** Creating a record: 201 from the guarded repositories, 200 from the
      unguarded one. A null argument is 400 from the former and 500 from the
      latter. */
  lemma CreateCodes(s: Store, e: Entity)
    requires !HasId(s, e.id)
    ensures EfRepository.Create(s, Some(e), Healthy).result.statusCode == 201
    ensures MongoRepository.Create(s, Some(e), Healthy).result.statusCode == 201
    ensures Repository.Create(s, Some(e), Healthy).result.statusCode == 200
    ensures EfRepository.Create(s, None, Healthy).result.statusCode == 400
    ensures Repository.Create(s, None, Healthy).result.statusCode == 500
  {
  }

  /** Reading the empty id: 400 from the guarded repositories; the unguarded
      one looks it up like any other key and answers 404 unless a record
      carries it. */
  lemma EmptyIdCodes(s: Store)
    requires !HasId(s, EmptyGuid)
    ensures EfRepository.GetById(s, EmptyGuid, Healthy).statusCode == 400
    ensures MongoRepository.GetById(s, EmptyGuid, Healthy).statusCode == 400
    ensures Repository.GetById(s, EmptyGuid, Healthy).statusCode == 404
    ensures PlayEfRepository.GetById(s, EmptyGuid, Healthy) == Failure(Argument)
  {
  }

  /** Updating an absent record: 404 from the guarded repositories, a
      concurrency failure (500) from the unguarded one, and an
      `InvalidOperationException` from the throwing ones; no store changes. */
  lemma UpdateAbsent(s: Store, e: Entity)
    requires e.id != EmptyGuid && !HasId(s, e.id)
    ensures EfRepository.Update(s, Some(e), Healthy) == Step(s, NotFound(EfRepository.IdNotFoundMessage(e.id)))
    ensures MongoRepository.Update(s, Some(e), Healthy).result.statusCode == 404
    ensures Repository.Update(s, Some(e), Healthy) == Step(s, Error(ConcurrencyMessage))
    ensures PlayEfRepository.Update(s, Some(e), Healthy) == Failure(InvalidOperation)
    ensures PlayMongoRepository.Update(s, Some(e), Healthy) == Failure(InvalidOperation)
  {
  }

  /** The upsert of an existing record: the relational variants copy the
      argument's values onto the stored record, keeping its marker; the
      document variant stores the argument itself. */
  lemma UpsertExisting(s: Store, e: Entity)
    requires UniqueIds(s) && e.id != EmptyGuid && HasId(s, e.id) && e.listEdit == Some(false)
    ensures var r := PlayEfRepository.ApplyChanges(s, Some(e), Healthy);
      r.Success? && Lookup(r.value, e.id) == Some(Lookup(s, e.id).value.(fields := e.fields))
    ensures var r := PlayMongoRepository.ApplyChanges(s, Some(e), Healthy);
      r.Success? && Lookup(r.value, e.id) == Some(e)
    ensures var r := LegacyEfRepository.ApplyChanges(s, Some(e), "T", Healthy);
      r.result.success && Lookup(r.store, e.id) == Some(Lookup(s, e.id).value.(fields := e.fields))
  {
  }

  /** A query envelope with no data (204 for an empty table) becomes the
      action result `Ok(null)`: status 200 with a null value. */
  lemma EmptyTableActionResult()
    ensures ApiController.FromResultOf(EfRepository.GetAll([], Healthy)) ==
      ApiController.ActionResult(200, ApiController.Value(None))
  {
  }
}

=== FILE: wrappers.dfy ===
/** Small failure-compatible datatypes shared by the whole model.
    - Option stands for a C# reference or nullable value that may be null.
    - Result stands for a call that either returns a value or raises an exception. */
module Wrappers {

  datatype Option<+T> = None | Some(value: T)

  datatype Result<+R, +E> = Success(value: R) | Failure(error: E)
}
